=== FILE: README.md ===
# Gmail labelling cycle — a Dafny model

This project models the triage cycle of the `AddLabel` class (AddLabel.js).
Each time it is invoked, the cycle does the following:

- validates and normalizes its configuration;
- reads a persisted watermark, defaulting to one hour before now;
- fetches the inbox threads whose last activity is strictly later than the
  watermark, each paired with the body of its latest message;
- advances the stored watermark to now;
- sends the fetched threads to a generative classifier in batches of `n`;
- for each reply that is an array, archives each named thread and attaches
  its label, skipping missing labels and the catch-all label "INBOX";
- writes the pre-cycle watermark back whenever a reply is absent or not an
  array;
- re-arms itself by replacing every trigger bound to its handler with a
  single one.

Each external service becomes part of an immutable `State`:

- the script property store becomes the watermark, an `Option<int>`;
- the mailbox becomes a `Mailbox`: the retrieval order of thread ids, a map
  from id to thread, and the set of user label names. A thread holds its
  last-activity time, its messages, its label set and an archived flag;
- the trigger registry becomes a `seq<Trigger>` of (handler, minutes) pairs;
- the classification service becomes a total function from a batch to a
  `Reply`. A reply is absent, not an array, an array of elements, or a
  transport failure;
- the clock becomes the integer input `now`, in milliseconds.

Modules, leaf first:

- `Wrappers`: `Option`, `Result`.
- `Config`: `checkObject_`. This covers the required fields, the INBOX
  fallback, and the defaults for `n` and `triggerTime`.
- `Mailbox`: the thread records and the fetch of `getNewMessages_`. The fetch
  filters, pairs each thread with its latest message, and breaks ties by
  taking the first match. It also holds the archive-and-label mutation.
- `Batcher`: the batching at line 175. It holds the pure `Chunk` partition
  and the source's `splice` loop with its `Array(Math.ceil(len / n))` length,
  and a proof that the two agree.
- `Classifier`: the reply shapes and the array check.
- `LabelApplier`: the loop over an accepted reply.
- `Scheduler`: `setTrigger_`.
- `Cycle`: `run`, with the watermark handling and the sequential batch loop.
- `CycleProperties`: lemmas about the batch loop and the whole cycle.
- `Scenario`: one concrete two-thread cycle.

A JavaScript `throw` keeps every mutation made before it and skips the
re-arm step (`LabelApplier.ApplyItemsStopsAtFirst`,
`CycleProperties.ProcessAbortState`). An aborted cycle has already stored
`now` as the watermark, so threads after the throw are not fetched again
unless a rejected reply restored the pre-cycle value. So `RunCycle` always returns the state it reached, the requests
it sent, and either the summary or the error. The summary is the start time
plus the number of fetched threads. The modelled errors are:

- configuration errors;
- the `RangeError` from `Array(negative)`;
- a transport failure of the classifier;
- an accepted reply with a `null` element;
- an accepted reply whose element names a thread id that is missing or
  unknown to the mailbox. `getThreadById` then yields `null`, and the next
  call on it throws.

## Semantics chosen where the code is easy to misread

- **Rollback is cycle-wide, not per batch.** Accepted replies never write the
  watermark. Every rejected reply writes the same pre-cycle value. So the
  final watermark is the pre-cycle value if any batch was rejected, and `now`
  otherwise, whatever the order of the batches. A rejected batch does not
  stop the loop (`CycleProperties.CycleWatermark`,
  `CycleProperties.ProcessCompletes`).
- **Duplicate INBOX entries are kept.** Normalization appends the catch-all
  entry only when no entry is named "INBOX". Duplicates already present in
  the configuration stay (`Config.NormalizeInboxCount`).

## Model

| member | source | states |
|---|---|---|
| Config.Validate | AddLabel.js:52-70 | Errors are reported in order: a falsy `functionName`, then a falsy `apiKey`, then a `labelObj` that is missing or not an array. Validation fails if and only if one of these holds. On success the names and key are kept, the label set is exactly the normalized configured set (so it contains "INBOX"), and a falsy `n` or `triggerTime` becomes 5 or 10. A truthy value is kept. |
| Config.NormalizeLabels | AddLabel.js:62-64 | The result always has an "INBOX" entry. A list that had one is returned unchanged. Otherwise `{INBOX, Others}` is appended at the end and nothing else changes. |
| Config.NormalizeIdempotent | AddLabel.js:62-64 | Normalizing an already normalized label set changes nothing, so a later cycle sees the same list. |
| Config.NormalizeInboxCount | AddLabel.js:62-64 | A list with no INBOX entry ends with exactly one. A list with some keeps its count, so no duplicate is added. |
| Config.OrDefault | AddLabel.js:65-70 | A falsy number (absent or 0) is replaced by the default and a truthy one is kept. The result is never falsy. |
| Mailbox.FirstAt | AddLabel.js:90 | Returns the index of a message dated at the given time, and no earlier message has that date. Ties go to the first match in retrieval order. |
| Mailbox.LastMessage | AddLabel.js:89-91 | The selected message is one of the thread's messages, and its date is the thread's last-activity time. It sits at an index before which no message carries that date, so ties go to the first match, as with `find`. |
| Mailbox.FetchFromCounts | AddLabel.js:85-93 | Each fetchable thread is fetched exactly as many times as the listing names it. A thread that is not fetchable is never fetched. |
| Mailbox.Fetch | AddLabel.js:85-93 | Every fetched thread is a non-archived thread of the mailbox, active strictly after the watermark, paired with its latest message's body. The fetched ids keep the mailbox's retrieval order. |
| Mailbox.FetchCounts | AddLabel.js:85 | An inbox thread active strictly after the watermark is fetched as many times as the listing names it. An archived thread, or one active at or before the watermark, is not fetched. |
| Mailbox.FetchFrom | AddLabel.js:85-93 | Every fetched thread is in the inbox, has a last-activity time strictly greater than the watermark, and carries its latest message's body. Every such thread is fetched. The fetched ids keep retrieval order, as a subsequence of the listing. |
| Mailbox.ApplyLabel | AddLabel.js:189-190 | The label exists afterwards. The thread is archived and gains the label, and its messages and activity time are kept. Every other thread is unchanged. |
| Batcher.Chunk | AddLabel.js:175 | For `n >= 1` there are `ceil(len/n)` batches. They concatenate back to the input, with no loss or reordering. Every batch has between 1 and `n` items, and all but the last have exactly `n`. |
| Batcher.BatchCount | AddLabel.js:175 | For positive `n` the array length is `ceil(len/n)`. For negative `n` the length is valid only when `len < -n`, and it is then zero. Otherwise `Array` throws. |
| Batcher.SpliceBatches | AddLabel.js:175 | `k` successive `splice(0, n)` calls give exactly `k` batches of at most `n` items each. Together they hold `min(len, k*n)` items. |
| Batcher.Batches | AddLabel.js:175 | For positive `n` the batching succeeds with `ceil(len/n)` batches. For negative `n` it succeeds only when `len < -n`, and then with no batch. Otherwise `Array` throws. |
| Batcher.SpliceIsChunk | AddLabel.js:175 | `ceil(len/n)` successive `splice(0, n)` calls produce exactly the pure partition `Chunk`. |
| Batcher.BatchesMeaning | AddLabel.js:173-175 | The source's batching equals `Chunk` for positive `n`. For negative `n` it yields no batch when fewer than `-n` items were fetched, and fails otherwise. |
| Batcher.ChunkTwelveByFive | AddLabel.js:175 | Twelve items in batches of five give batch sizes 5, 5 and 2 that concatenate back to the input. |
| Classifier.Check | AddLabel.js:179-180 | A reply is accepted if and only if it is an array, and then its elements are used unchanged. An absent or non-array reply is rejected, and a transport failure is reported separately. |
| LabelApplier.ApplyItem | AddLabel.js:184-191 | An element throws if and only if it is `null`, or it has an active label and a missing or unknown thread id. An element with a missing, empty or "INBOX" label changes nothing. Any other element archives its thread and attaches its label. |
| LabelApplier.ApplyItems | AddLabel.js:184-192 | Applying a reply keeps the thread list, the thread set, every thread's messages and activity times, and every existing user label. It also keeps the mailbox well formed. |
| LabelApplier.ApplyItemsStopsAtFirst | AddLabel.js:184-190 | When applying a reply throws, it throws at the first element that would throw: a `null` element or one with an active label whose thread is missing or unknown. The elements before it stay applied. That element and every later one change nothing. The error names the cause. |
| LabelApplier.ApplyItemsFails | AddLabel.js:184-190 | Applying a reply completes if and only if none of its elements would throw. |
| LabelApplier.ApplyItemsUntouched | AddLabel.js:184-192 | A thread that no element names with an active label keeps its state. This holds even when the loop throws part-way. |
| LabelApplier.ApplyItemsEffect | AddLabel.js:184-192 | On completion, every thread named by an element is archived and carries exactly the labels named for it. Every thread not named is unchanged. |
| LabelApplier.ApplyItemsUserLabels | AddLabel.js:189 | On completion, the user labels gain exactly the active labels named, and no others. |
| LabelApplier.ApplyItemsUserLabelsBound | AddLabel.js:184-190 | Even when a later element throws, applying a reply creates no user label other than the active labels its elements name. |
| LabelApplier.InboxOnlyReplyChangesNothing | AddLabel.js:185 | A reply whose elements all have a missing or "INBOX" label leaves the mailbox exactly as it was. |
| Scheduler.DeleteBound | AddLabel.js:208-212 | No trigger bound to the handler remains. Each other handler's triggers are kept, in order. |
| Scheduler.Rearm | AddLabel.js:207-214 | Afterwards exactly one trigger is bound to the handler, with the given interval, however many were bound before. The triggers of every other handler are unchanged. |
| Scheduler.RearmIdempotent | AddLabel.js:207-214 | Re-arming a second time with the same handler and interval changes nothing. |
| Cycle.ProcessBatches | AddLabel.js:176-194 | Batches are sent strictly in order. Without an error every batch is sent. An error means a non-empty prefix was sent and no later batch. Triggers and the thread set are kept. The watermark is either unchanged or the written-back pre-cycle value. |
| Cycle.StartWatermark | AddLabel.js:82-84 | With no stored watermark the cycle filters with `now - 3600000`. Otherwise it uses the stored value. |
| Cycle.RunCycle | AddLabel.js:37-43 | A configuration error returns the state unchanged with no request. Every cycle keeps the thread list and the thread set. A validated cycle always stores some watermark. A completed cycle is stamped `now` and its triggers are the re-armed ones. An aborted cycle keeps the triggers. |
| CycleProperties.ProcessCompletes | AddLabel.js:176-194 | The batch loop runs to the end exactly when no reply is a transport failure, and no accepted reply has an element that throws. A rejected reply never stops it. |
| CycleProperties.ProcessStopsAtFirst | AddLabel.js:176-190 | When the batch loop stops, the last batch sent is the first whose reply does not continue it: a transport failure, or an accepted array with an element that throws. Every earlier reply continued it, and no later batch is sent. |
| CycleProperties.ProcessAbortState | AddLabel.js:176-190 | A stop keeps every mutation made before it. The batches before the last one sent ran to the end. On a throwing accepted reply, the final state is that state with the reply's elements applied up to the throw. On a transport failure, it is that state unchanged. The error names the cause. |
| CycleProperties.ProcessWatermark | AddLabel.js:180-182 | After the batch loop the watermark is the pre-cycle value if any reply sent was rejected, and otherwise the incoming value. Accepted replies never write it. |
| CycleProperties.ProcessUntouched | AddLabel.js:176-194 | A thread that no accepted reply to a sent batch names keeps its state, even when the loop stops part-way. |
| CycleProperties.ProcessEffect | AddLabel.js:176-194 | When the loop completes, each thread has received exactly the labels that the accepted replies name for it, across all batches. |
| CycleProperties.ProcessUserLabels | AddLabel.js:176-190 | The batch loop never deletes a user label. It creates none except the active labels named by the accepted replies to the batches sent. When it runs to the end, it creates exactly those labels, across all replies. |
| CycleProperties.ProcessAllRejected | AddLabel.js:180-182 | When every reply is absent or not an array, the loop sends every batch and completes. It changes nothing except the stored watermark, which becomes the pre-cycle value. |
| CycleProperties.CycleConfigError | AddLabel.js:37-61 | The cycle fails with a configuration error if and only if a required field is falsy or `labelObj` is invalid. It then changes no watermark, mailbox or trigger and sends no request. |
| CycleProperties.CycleCompletes | AddLabel.js:37-43 | A validated cycle completes, and so re-arms, exactly in two cases: nothing was fetched, or the batching succeeds and every reply continues the batch loop. |
| CycleProperties.RejectedRepliesNotFatal | AddLabel.js:180-182 | If every reply is absent or not an array and `n` is positive, no exception is raised. The cycle completes and reports every fetched thread. It leaves the pre-cycle watermark, or `now` when nothing was fetched. |
| CycleProperties.RejectedRepliesChangeNoThread | AddLabel.js:180-182 | If every reply is absent or not an array, no thread is archived or relabelled. |
| CycleProperties.CycleWatermark | AddLabel.js:81-86 | Once past validation, the final watermark is the pre-cycle value if any reply was rejected, and `now` otherwise. The pre-cycle value is `now - 3600000` when none was stored. This holds even if the cycle later aborts. |
| CycleProperties.CycleRequests | AddLabel.js:172-196 | With no fetched thread, no classifier request is made and the cycle completes. A completed cycle reports the number of fetched threads, rejected or INBOX ones included. With positive `n` its requests are exactly `Chunk` of the fetched list. |
| CycleProperties.CycleTriggers | AddLabel.js:37-43 | A completed cycle leaves exactly one trigger bound to `functionName`, with interval `triggerTime`, and other handlers' triggers as before. An aborted cycle leaves all triggers as they were. |
| CycleProperties.CycleUntouched | AddLabel.js:184-191 | A cycle mutates only threads that an accepted reply names with a label other than a missing one or "INBOX". |
| CycleProperties.CycleKeepsMailbox | AddLabel.js:186-190 | The mailbox after a cycle keeps its thread list and thread set, and stays well formed for the next cycle's fetch. |
| CycleProperties.CycleEffect | AddLabel.js:176-196 | In a completed cycle, each thread ends archived with exactly the labels named for it in accepted replies, or unchanged when none are named. |
| CycleProperties.CycleUserLabels | AddLabel.js:176-190 | A cycle never deletes a user label. It creates none except the active labels named by the accepted replies it received. A completed cycle creates exactly those labels. |
| Scenario.TwoThreadCycle | AddLabel.js:37-43 | Two fetched threads, batch size 5, and a reply labelling A "academic" and B "INBOX". Both threads go out in one request, the thread set is kept, the label "academic" is created, two threads are reported, the watermark becomes `now`, and duplicate triggers collapse to one. |
| Scenario.TwoThreadThreads | AddLabel.js:184-190 | In the same cycle, A is archived and labelled "academic", and B, named only with "INBOX", is untouched. |

## Left out

- `createPrompt_` (AddLabel.js:105-161): the prompt is string templating
  around `JSON.stringify`. The classifier is modelled as an arbitrary function
  of the batch, so the prompt's content has no effect on the model.
- The network call, model selection and authentication of the classification
  service. They become the `classify` parameter. A thrown transport error is
  modelled as `TransportFailure`.
- Errors raised by the mailbox or the trigger service. Examples are quota
  errors, invalid label names and interval values `everyMinutes` refuses.
  These are foreign services. The only mailbox failure modelled is a thread
  id the mailbox does not know.
- Logging (`console.log`, `console.warn`) and the token-usage report.
- A reply without usage metadata. AddLabel.js:188 reads
  `usageMetadata.totalTokenCount` for every element with an active label,
  before the label is fetched or created, so a missing `usageMetadata` would
  throw there. The model assumes the service always returns usage metadata,
  so `Fails` does not include that case.
- The `Date` object and ISO-8601 formatting. `now` is an integer input, and
  the summary carries the timestamp and count instead of the rendered string.
- Non-numeric stored watermarks. These would make `Number(prev)` NaN. The
  store holds an `Option<int>`.
- Non-integer or NaN values of `n` and `triggerTime`. These fields are
  modelled as integers.
- Configuration fields and reply fields that are not strings, and JavaScript
  loose equality on them. Label names, thread ids, the handler name and the
  API key are strings or absent.
- `null` entries inside `labelObj`, which would make the `some` call throw.
- The mailbox's paging limits on listing inbox threads, and `refresh()`. The
  latter has no effect on the modelled state.
- A thread with no message at its last-activity time. The source would throw
  on `undefined.getPlainBody()`. `RunCycle` requires a well-formed mailbox
  instead, because the mailbox reports the last message's date as the
  thread's activity time.
- sample.js: it only builds a configuration object and calls `run()`.
- Overlapping invocations. A single cycle is a sequential, synchronous
  transition.

=== FILE: applier.dfy ===
/**
 * Application of an accepted classifier reply to the mailbox (the
 * `returnValue.forEach` loop of `callGemini_`): elements with a missing or
 * "INBOX" label are skipped; every other element gets its label created if
 * absent, its thread archived and the label attached. A `null` element or a
 * thread id the mailbox does not know makes the loop throw; the mutations of
 * the earlier elements persist.
 */
module LabelApplier {
  import opened Wrappers
  import opened Mailbox
  import opened Classifier

  /** Why applying a reply stopped part-way. */
  datatype ApplyError = NullEntry | UnknownThread(threadId: Option<string>)

  /** The mailbox after applying a reply, and the error that stopped it, if any. */
  datatype Applied = Applied(mail: Mailbox, error: Option<ApplyError>)

  /** The element makes the loop throw on a mailbox with these threads. */
  predicate Fails(mb: Mailbox, item: ReplyItem) {
    || item.NullItem?
    || (ActiveLabel(item.labelName) && (item.threadId.None? || item.threadId.value !in mb.threads))
  }

  /** The labels the elements attach to thread `id`. */
  function LabelsFor(items: seq<ReplyItem>, id: ThreadId): set<string> {
    set i | 0 <= i < |items| && Names(items[i], id) :: items[i].labelName.value
  }

  /** The label names the elements make exist. */
  function NewLabels(items: seq<ReplyItem>): set<string> {
    set i | 0 <= i < |items| && items[i].Item? && ActiveLabel(items[i].labelName) :: items[i].labelName.value
  }

  /** A thread after it received the labels `ls`: archived and labelled when `ls` is non-empty. */
  function Relabel(t: MailThread, ls: set<string>): MailThread {
    if ls == {} then t else t.(archived := true, labels := t.labels + ls)
  }

  /** Applies one element; `None` in the error slot when it was applied or skipped. */
  function ApplyItem(mb: Mailbox, item: ReplyItem): (r: Applied)
    ensures r.error.Some? <==> Fails(mb, item)
    ensures r.error.Some? ==> r.mail == mb
    ensures r.error.None? && !(item.Item? && ActiveLabel(item.labelName)) ==> r.mail == mb
    ensures r.error.None? && item.Item? && ActiveLabel(item.labelName) ==>
      r.mail == ApplyLabel(mb, item.threadId.value, item.labelName.value)
  {
    match item
    case NullItem => Applied(mb, Some(NullEntry))
    case Item(labelName, threadId) =>
      if !ActiveLabel(labelName) then Applied(mb, None)
      else if threadId.None? || threadId.value !in mb.threads then Applied(mb, Some(UnknownThread(threadId)))
      else Applied(ApplyLabel(mb, threadId.value, labelName.value), None)
  }

  /** Applies the elements in order, stopping at the first one that throws. */
  function ApplyItems(mb: Mailbox, items: seq<ReplyItem>): (r: Applied)
    ensures r.mail.order == mb.order && r.mail.threads.Keys == mb.threads.Keys
    ensures mb.userLabels <= r.mail.userLabels
    ensures forall id :: id in mb.threads ==>
      && r.mail.threads[id].lastActivity == mb.threads[id].lastActivity
      && r.mail.threads[id].messages == mb.threads[id].messages
    ensures WellFormed(mb) ==> WellFormed(r.mail)
    decreases |items|
  {
    if |items| == 0 then Applied(mb, None)
    else
      var first := ApplyItem(mb, items[0]);
      if first.error.Some? then first
      else ApplyItems(first.mail, items[1..])
  }

  /** The labels a list attaches to one thread, split into its head's and its tail's. */
  lemma LabelsForCons(items: seq<ReplyItem>, id: ThreadId)
    requires |items| > 0
    ensures LabelsFor(items, id)
      == (if Names(items[0], id) then {items[0].labelName.value} else {}) + LabelsFor(items[1..], id)
  {
    assert forall i :: 1 <= i < |items| ==> items[i] == items[1..][i - 1];
  }

  /** The labels a list makes exist, split into its head's and its tail's. */
  lemma NewLabelsCons(items: seq<ReplyItem>)
    requires |items| > 0
    ensures NewLabels(items)
      == (if items[0].Item? && ActiveLabel(items[0].labelName) then {items[0].labelName.value} else {})
         + NewLabels(items[1..])
  {
    assert forall i :: 1 <= i < |items| ==> items[i] == items[1..][i - 1];
  }

  /** Applying a reply throws exactly when one of its elements would throw. */
  lemma {:induction false} ApplyItemsFails(mb: Mailbox, items: seq<ReplyItem>)
    ensures ApplyItems(mb, items).error.None? <==> forall i :: 0 <= i < |items| ==> !Fails(mb, items[i])
    decreases |items|
  {
    if |items| > 0 {
      var first := ApplyItem(mb, items[0]);
      if first.error.None? {
        ApplyItemsFails(first.mail, items[1..]);
        assert forall i :: 1 <= i < |items| ==> items[i] == items[1..][i - 1];
        assert forall it :: Fails(first.mail, it) <==> Fails(mb, it);
      }
    }
  }

  /**
   * Applying `items` stopped at element `k` with result `a`: the elements
   * before `k` apply without a throw, element `k` throws, and the mailbox is
   * the one the elements before `k` produced.
   */
  predicate StoppedAt(mb: Mailbox, items: seq<ReplyItem>, a: Applied, k: int) {
    && 0 <= k < |items|
    && Fails(mb, items[k])
    && (forall j :: 0 <= j < k ==> !Fails(mb, items[j]))
    && ApplyItems(mb, items[..k]).error.None?
    && a.mail == ApplyItems(mb, items[..k]).mail
    && a.error == Some(if items[k].NullItem? then NullEntry else UnknownThread(items[k].threadId))
  }

  /** A stop at `k` in the tail after a head that applied is a stop at `k + 1` in the whole list. */
  lemma StoppedAtCons(mb: Mailbox, items: seq<ReplyItem>, a: Applied, k: int)
    requires |items| > 0 && ApplyItem(mb, items[0]).error.None?
    requires StoppedAt(ApplyItem(mb, items[0]).mail, items[1..], a, k)
    ensures StoppedAt(mb, items, a, k + 1)
  {
    var first := ApplyItem(mb, items[0]);
    assert forall it :: Fails(first.mail, it) <==> Fails(mb, it);
    assert items[..k + 1][0] == items[0] && items[..k + 1][1..] == items[1..][..k];
    assert forall j :: 1 <= j <= k + 1 ==> items[j] == items[1..][j - 1];
  }

  /**
   * A throw keeps the earlier mutations: when applying a reply stops, it
   * stops at the first element that throws, the elements before it stay
   * applied, and neither that element nor any later one changes the mailbox.
   */
  lemma {:induction false} ApplyItemsStopsAtFirst(mb: Mailbox, items: seq<ReplyItem>)
    ensures var a := ApplyItems(mb, items);
      a.error.Some? ==> exists k :: StoppedAt(mb, items, a, k)
    decreases |items|
  {
    if |items| > 0 {
      var a := ApplyItems(mb, items);
      var first := ApplyItem(mb, items[0]);
      if first.error.Some? {
        assert items[..0] == [];
        assert StoppedAt(mb, items, a, 0);
      } else if a.error.Some? {
        ApplyItemsStopsAtFirst(first.mail, items[1..]);
        var k :| StoppedAt(first.mail, items[1..], a, k);
        StoppedAtCons(mb, items, a, k);
      }
    }
  }

  /**
   * A thread no element names keeps its state, whether or not applying the
   * reply throws part-way.
   */
  lemma {:induction false} ApplyItemsUntouched(mb: Mailbox, items: seq<ReplyItem>, id: ThreadId)
    requires id in mb.threads && LabelsFor(items, id) == {}
    ensures ApplyItems(mb, items).mail.threads[id] == mb.threads[id]
    decreases |items|
  {
    if |items| > 0 {
      LabelsForCons(items, id);
      var first := ApplyItem(mb, items[0]);
      if first.error.None? {
        ApplyItemsUntouched(first.mail, items[1..], id);
      }
    }
  }

  /**
   * When no element throws, every thread ends archived and carrying exactly
   * the labels the elements name for it, and unchanged when they name none.
   */
  lemma {:induction false} ApplyItemsEffect(mb: Mailbox, items: seq<ReplyItem>, id: ThreadId)
    requires id in mb.threads
    requires ApplyItems(mb, items).error.None?
    ensures ApplyItems(mb, items).mail.threads[id] == Relabel(mb.threads[id], LabelsFor(items, id))
    decreases |items|
  {
    if |items| > 0 {
      LabelsForCons(items, id);
      var first := ApplyItem(mb, items[0]);
      ApplyItemsEffect(first.mail, items[1..], id);
    }
  }

  /** When no element throws, the user labels gain exactly the labels the elements name. */
  lemma {:induction false} ApplyItemsUserLabels(mb: Mailbox, items: seq<ReplyItem>)
    requires ApplyItems(mb, items).error.None?
    ensures ApplyItems(mb, items).mail.userLabels == mb.userLabels + NewLabels(items)
    decreases |items|
  {
    if |items| > 0 {
      NewLabelsCons(items);
      var first := ApplyItem(mb, items[0]);
      ApplyItemsUserLabels(first.mail, items[1..]);
    }
  }

  /**
   * Applying a reply, even one that throws part-way, creates no label but
   * the active ones its elements name.
   */
  lemma ApplyItemsUserLabelsBound(mb: Mailbox, items: seq<ReplyItem>)
    ensures ApplyItems(mb, items).mail.userLabels <= mb.userLabels + NewLabels(items)
  {
    var a := ApplyItems(mb, items);
    if a.error.None? {
      ApplyItemsUserLabels(mb, items);
    } else {
      ApplyItemsStopsAtFirst(mb, items);
      var k :| StoppedAt(mb, items, a, k);
      ApplyItemsUserLabels(mb, items[..k]);
      forall x | x in NewLabels(items[..k])
        ensures x in NewLabels(items)
      {
        var i :| 0 <= i < k && items[..k][i].Item? && ActiveLabel(items[..k][i].labelName)
          && x == items[..k][i].labelName.value;
        assert items[..k][i] == items[i];
      }
    }
  }

  /** A reply whose elements all carry a missing or "INBOX" label leaves the mailbox as it was. */
  lemma InboxOnlyReplyChangesNothing(mb: Mailbox, items: seq<ReplyItem>)
    requires forall i :: 0 <= i < |items| ==> items[i].Item? && !ActiveLabel(items[i].labelName)
    ensures ApplyItems(mb, items) == Applied(mb, None)
  {
    ApplyItemsFails(mb, items);
    forall id | id in mb.threads
      ensures ApplyItems(mb, items).mail.threads[id] == mb.threads[id]
    {
      ApplyItemsUntouched(mb, items, id);
    }
    ApplyItemsUserLabels(mb, items);
    assert NewLabels(items) == {};
  }
}

=== FILE: batcher.dfy ===
/**
 * Batching of the fetched threads (AddLabel.js line 175). The source builds
 * `Math.ceil(len / n)` slots and fills each with `splice(0, n)` from the
 * front of the list; `Chunk` is the pure partition it is meant to compute.
 */
module Batcher {
  import opened Wrappers

  /** The concatenation of a list of batches. */
  function Flatten<T>(ss: seq<seq<T>>): seq<T>
    decreases |ss|
  {
    if |ss| == 0 then [] else ss[0] + Flatten(ss[1..])
  }

  /** `ceil(len / n)` for a positive divisor. */
  function CeilDiv(len: nat, n: nat): nat
    requires n >= 1
  {
    (len + n - 1) / n
  }

  /** One more full batch of `n` adds one to the ceiling. */
  lemma CeilDivStep(len: nat, n: nat)
    requires n >= 1 && len > n
    ensures CeilDiv(len, n) == 1 + CeilDiv(len - n, n)
  {
    var a := len - 1;
    var q := a / n;
    var rem := a % n;
    assert a == q * n + rem && 0 <= rem < n;
    assert len + n - 1 == (q + 1) * n + rem;
    DivUnique(len + n - 1, n, q + 1, rem);
    assert len - n + n - 1 == q * n + rem;
    DivUnique(len - n + n - 1, n, q, rem);
  }

  /** A length between 1 and `n` needs exactly one batch. */
  lemma CeilDivOne(len: nat, n: nat)
    requires n >= 1 && 1 <= len <= n
    ensures CeilDiv(len, n) == 1
  {
    DivUnique(len + n - 1, n, 1, len - 1);
  }

  /** Euclidean division is determined by quotient and remainder. */
  lemma DivUnique(a: nat, n: nat, q: nat, rem: nat)
    requires n >= 1 && rem < n && a == q * n + rem
    ensures a / n == q
  {
    var q' := a / n;
    var r' := a % n;
    assert q' * n + r' == q * n + rem;
    MulSub(q, q', n);
    SmallMultiple(q - q', n);
  }

  lemma MulSub(x: int, y: int, n: int)
    ensures (x - y) * n == x * n - y * n
  {
  }

  /** The only multiple of `n` strictly between `-n` and `n` is zero. */
  lemma SmallMultiple(d: int, n: int)
    requires n >= 1 && -n < d * n < n
    ensures d == 0
  {
    MulBound(d, n);
  }

  lemma MulBound(d: int, n: int)
    requires n >= 1
    ensures d >= 1 ==> d * n >= n
    ensures d <= -1 ==> d * n <= -n
  {
  }

  /**
   * Splits `s` into contiguous batches of `n` items; only the last may be
   * shorter. Nothing is dropped or reordered.
   */
  function Chunk<T>(s: seq<T>, n: nat): (r: seq<seq<T>>)
    requires n >= 1
    ensures Flatten(r) == s
    ensures |r| == CeilDiv(|s|, n)
    ensures forall i :: 0 <= i < |r| ==> 1 <= |r[i]| <= n
    ensures forall i :: 0 <= i < |r| - 1 ==> |r[i]| == n
    decreases |s|
  {
    if |s| == 0 then []
    else if |s| <= n then
      assert Flatten([s]) == s + Flatten([s][1..]);
      CeilDivOne(|s|, n);
      [s]
    else
      var rest := Chunk(s[n..], n);
      ChunkCons(s, n, rest);
      [s[..n]] + rest
  }

  /** A full first batch in front of a partition of the remainder partitions the whole. */
  lemma ChunkCons<T>(s: seq<T>, n: nat, rest: seq<seq<T>>)
    requires n >= 1 && |s| > n
    requires Flatten(rest) == s[n..] && |rest| == CeilDiv(|s| - n, n)
    requires forall i :: 0 <= i < |rest| ==> 1 <= |rest[i]| <= n
    requires forall i :: 0 <= i < |rest| - 1 ==> |rest[i]| == n
    ensures var r := [s[..n]] + rest;
      && Flatten(r) == s
      && |r| == CeilDiv(|s|, n)
      && (forall i :: 0 <= i < |r| ==> 1 <= |r[i]| <= n)
      && (forall i :: 0 <= i < |r| - 1 ==> |r[i]| == n)
  {
    var r := [s[..n]] + rest;
    assert r[0] == s[..n] && r[1..] == rest;
    assert forall i :: 1 <= i < |r| ==> r[i] == rest[i - 1];
    assert Flatten(r) == s[..n] + Flatten(rest);
    assert s[..n] + s[n..] == s;
    CeilDivStep(|s|, n);
  }

  function Min(a: int, b: int): int {
    if a <= b then a else b
  }

  /**
   * The batching as the source performs it: `k` successive `splice(0, n)`
   * calls, each removing up to `n` items from the front of `rest`.
   */
  function SpliceBatches<T>(rest: seq<T>, n: nat, k: nat): (r: seq<seq<T>>)
    ensures |r| == k
    ensures forall i :: 0 <= i < k ==> |r[i]| <= n
    ensures |Flatten(r)| == Min(|rest|, k * n)
    decreases k
  {
    if k == 0 then []
    else
      var m := Min(n, |rest|);
      [rest[..m]] + SpliceBatches(rest[m..], n, k - 1)
  }

  /**
   * The length handed to `Array(Math.ceil(len / n))` for a non-zero `n`:
   * `None` when it is negative, which makes `Array` throw a RangeError.
   * For negative `n` the ceiling is `-(len div |n|)`, which is zero
   * (a valid `-0` length) exactly when `len < |n|`.
   */
  function BatchCount(len: nat, n: int): (r: Option<nat>)
    requires n != 0
    ensures n > 0 ==> r == Some(CeilDiv(len, n))
    ensures n < 0 ==> (r.Some? <==> len < -n)
    ensures n < 0 && r.Some? ==> r.value == 0
  {
    if n > 0 then Some(CeilDiv(len, n))
    else
      var c := -(len / (-n));
      if c == 0 then Some(0) else None
  }

  /** The source's batching: `None` when `Array` would throw, else the spliced batches. */
  function Batches<T>(items: seq<T>, n: int): (r: Option<seq<seq<T>>>)
    requires n != 0
    ensures n > 0 ==> r.Some? && |r.value| == CeilDiv(|items|, n)
    ensures n < 0 ==> (r.Some? <==> |items| < -n)
    ensures n < 0 && r.Some? ==> r.value == []
  {
    match BatchCount(|items|, n)
    case None => None
    case Some(k) => if n > 0 then Some(SpliceBatches(items, n, k)) else Some([])
  }

  /** `k` splices of `n` over `s` with `k == ceil(|s| / n)` produce exactly `Chunk(s, n)`. */
  lemma {:induction false} SpliceIsChunk<T>(s: seq<T>, n: nat)
    requires n >= 1
    ensures SpliceBatches(s, n, CeilDiv(|s|, n)) == Chunk(s, n)
    decreases |s|
  {
    if |s| == 0 {
    } else if |s| <= n {
      CeilDivOne(|s|, n);
      assert s[|s|..] == [];
      assert SpliceBatches(s, n, 1) == [s[..|s|]] + SpliceBatches(s[|s|..], n, 0);
    } else {
      CeilDivStep(|s|, n);
      SpliceIsChunk(s[n..], n);
    }
  }

  /**
   * For a positive batch size the source's batching succeeds and is the pure
   * partition `Chunk`; for a negative one it yields no batch when the list is
   * shorter than `|n|` and fails otherwise.
   */
  lemma BatchesMeaning<T>(items: seq<T>, n: int)
    requires n != 0
    ensures n > 0 ==> Batches(items, n) == Some(Chunk(items, n))
    ensures n < 0 ==> (Batches(items, n).Some? <==> |items| < -n)
    ensures n < 0 && Batches(items, n).Some? ==> Batches(items, n).value == []
  {
    if n > 0 {
      SpliceIsChunk(items, n);
    }
  }

  /** Twelve items in batches of five give batches of sizes 5, 5 and 2. */
  lemma ChunkTwelveByFive(s: seq<int>)
    requires |s| == 12
    ensures |Chunk(s, 5)| == 3
    ensures |Chunk(s, 5)[0]| == 5 && |Chunk(s, 5)[1]| == 5 && |Chunk(s, 5)[2]| == 2
    ensures Flatten(Chunk(s, 5)) == s
  {
    var r := Chunk(s, 5);
    assert |r| == 3;
    assert 1 <= |r[2]| <= 5;
    assert |Flatten(r)| == |r[0]| + |r[1]| + |r[2]| by {
      assert Flatten(r) == r[0] + Flatten(r[1..]);
      assert Flatten(r[1..]) == r[1] + Flatten(r[2..]);
      assert Flatten(r[2..]) == r[2] + Flatten(r[3..]);
    }
  }
}

=== FILE: classifier.dfy ===
/**
 * What the classification service hands back for one batch, and the check
 * the cycle applies to it in `callGemini_`: only an array is accepted; the
 * shape of its elements is not validated.
 */
module Classifier {
  import opened Wrappers
  import opened Config

  /**
   * One element of the reply array. `NullItem` is a `null` element, on which
   * destructuring `{label, threadId}` throws; any other element reads its two
   * fields, each possibly absent.
   */
  datatype ReplyItem = NullItem | Item(labelName: Option<string>, threadId: Option<string>)

  /**
   * The reply for one batch: absent (`null` or another falsy value), some
   * value that is not an array, an array, or a transport failure raised by
   * the service call itself.
   */
  datatype Reply = NoReply | NotAnArray | ArrayReply(items: seq<ReplyItem>) | TransportFailure

  /** Why a reply was turned away. */
  datatype Rejection = Rejected | Unreachable

  /** A reply that reached the cycle but is absent or not an array. */
  predicate Invalid(reply: Reply) {
    reply.NoReply? || reply.NotAnArray?
  }

  /**
   * The response check: an array is accepted as is, an absent or non-array
   * reply is rejected, and a transport failure reports the service unreachable.
   */
  function Check(reply: Reply): (r: Result<seq<ReplyItem>, Rejection>)
    ensures r.Ok? <==> reply.ArrayReply?
    ensures r.Ok? ==> r.value == reply.items
    ensures r == Err(Rejected) <==> Invalid(reply)
    ensures r == Err(Unreachable) <==> reply.TransportFailure?
  {
    match reply
    case ArrayReply(items) => Ok(items)
    case TransportFailure => Err(Unreachable)
    case _ => Err(Rejected)
  }

  /** A label that causes a mailbox change: present, non-empty and not the catch-all. */
  predicate ActiveLabel(labelName: Option<string>) {
    labelName.Some? && labelName.value != "" && labelName.value != InboxLabel
  }

  /** The element asks for `id` to be archived and labelled. */
  predicate Names(item: ReplyItem, id: string) {
    item.Item? && ActiveLabel(item.labelName) && item.threadId == Some(id)
  }
}

=== FILE: config.dfy ===
/**
 * Configuration normalization and validation performed at the start of every
 * triage cycle (`checkObject_` in AddLabel.js): the three required fields are
 * checked in order, the catch-all "INBOX" label descriptor is appended when it
 * is missing, and the batch size and trigger interval receive their defaults.
 */
module Config {
  import opened Wrappers

  /** Name of the catch-all label; threads classified with it are left alone. */
  const InboxLabel: string := "INBOX"
  /** Description given to the catch-all label when it has to be appended. */
  const InboxDescription: string := "Others"
  /** Number of threads per classifier request when `n` is falsy. */
  const DefaultBatchSize: int := 5
  /** Trigger interval in minutes when `triggerTime` is falsy. */
  const DefaultTriggerMinutes: int := 10

  /** One `{label, description}` entry of the configured label set. */
  datatype LabelDescriptor = LabelDescriptor(name: string, description: string)

  /** The `labelObj` field as supplied: missing or null, present but not an array, or an array. */
  datatype LabelField = Missing | NotAnArray | LabelArray(entries: seq<LabelDescriptor>)

  /**
   * The configuration object as handed to the cycle. `None` stands for an
   * absent (`undefined`) or `null` field.
   */
  datatype RawConfig = RawConfig(
    functionName: Option<string>,
    apiKey: Option<string>,
    labelObj: LabelField,
    n: Option<int>,
    triggerTime: Option<int>)

  /** The configuration after validation and normalization. */
  datatype Settings = Settings(
    functionName: string,
    apiKey: string,
    labels: seq<LabelDescriptor>,
    n: int,
    triggerTime: int)

  /** The three configuration errors, in the order they are checked. */
  datatype ConfigError = MissingFunctionName | MissingApiKey | InvalidLabelObj

  /** JavaScript truthiness of an optional string: present and not empty. */
  predicate TruthyString(s: Option<string>) {
    s.Some? && s.value != ""
  }

  /** JavaScript truthiness of an optional integer: present and not zero. */
  predicate TruthyNumber(x: Option<int>) {
    x.Some? && x.value != 0
  }

  /** Some entry of the label set is named "INBOX". */
  predicate HasInbox(labels: seq<LabelDescriptor>) {
    exists i :: 0 <= i < |labels| && labels[i].name == InboxLabel
  }

  /** Number of entries of the label set named "INBOX". */
  function InboxCount(labels: seq<LabelDescriptor>): nat {
    if |labels| == 0 then 0
    else (if labels[0].name == InboxLabel then 1 else 0) + InboxCount(labels[1..])
  }

  /** The catch-all entry appended when the label set lacks one. */
  function InboxEntry(): LabelDescriptor {
    LabelDescriptor(InboxLabel, InboxDescription)
  }

  /** Appends the catch-all entry when no entry is named "INBOX"; otherwise keeps the list. */
  function NormalizeLabels(labels: seq<LabelDescriptor>): (r: seq<LabelDescriptor>)
    ensures HasInbox(r)
    ensures labels <= r && |r| <= |labels| + 1
    ensures HasInbox(labels) ==> r == labels
    ensures !HasInbox(labels) ==> r[|labels|] == LabelDescriptor("INBOX", "Others")
  {
    if HasInbox(labels) then labels
    else
      var r := labels + [InboxEntry()];
      assert r[|labels|].name == InboxLabel;
      r
  }

  /** A falsy number is replaced by the default, a truthy one is kept. */
  function OrDefault(x: Option<int>, default: int): (r: int)
    requires default != 0
    ensures r != 0
    ensures TruthyNumber(x) ==> r == x.value
    ensures !TruthyNumber(x) ==> r == default
  {
    if TruthyNumber(x) then x.value else default
  }

  /**
   * Validates the required fields in the order `functionName`, `apiKey`,
   * `labelObj`, then normalizes the label set and applies the defaults.
   */
  function Validate(raw: RawConfig): (r: Result<Settings, ConfigError>)
    ensures r.Err? <==>
      !TruthyString(raw.functionName) || !TruthyString(raw.apiKey) || !raw.labelObj.LabelArray?
    ensures !TruthyString(raw.functionName) ==> r == Err(MissingFunctionName)
    ensures TruthyString(raw.functionName) && !TruthyString(raw.apiKey) ==> r == Err(MissingApiKey)
    ensures TruthyString(raw.functionName) && TruthyString(raw.apiKey) && !raw.labelObj.LabelArray? ==>
      r == Err(InvalidLabelObj)
    ensures r.Ok? ==> r.value.labels == NormalizeLabels(raw.labelObj.entries)
    ensures r.Ok? ==>
      && r.value.functionName == raw.functionName.value
      && r.value.apiKey == raw.apiKey.value
      && r.value.functionName != ""
      && HasInbox(r.value.labels)
      && raw.labelObj.entries <= r.value.labels
      && r.value.n != 0
      && r.value.triggerTime != 0
      && (TruthyNumber(raw.n) ==> r.value.n == raw.n.value)
      && (!TruthyNumber(raw.n) ==> r.value.n == 5)
      && (TruthyNumber(raw.triggerTime) ==> r.value.triggerTime == raw.triggerTime.value)
      && (!TruthyNumber(raw.triggerTime) ==> r.value.triggerTime == 10)
  {
    if !TruthyString(raw.functionName) then Err(MissingFunctionName)
    else if !TruthyString(raw.apiKey) then Err(MissingApiKey)
    else if !raw.labelObj.LabelArray? then Err(InvalidLabelObj)
    else Ok(Settings(
      raw.functionName.value,
      raw.apiKey.value,
      NormalizeLabels(raw.labelObj.entries),
      OrDefault(raw.n, DefaultBatchSize),
      OrDefault(raw.triggerTime, DefaultTriggerMinutes)))
  }

  /** `InboxCount` distributes over concatenation. */
  lemma {:induction false} InboxCountAppend(a: seq<LabelDescriptor>, b: seq<LabelDescriptor>)
    ensures InboxCount(a + b) == InboxCount(a) + InboxCount(b)
    decreases |a|
  {
    if |a| == 0 {
      assert a + b == b;
    } else {
      assert (a + b)[1..] == a[1..] + b;
      InboxCountAppend(a[1..], b);
    }
  }

  /** The existential and the counting view of "has an INBOX entry" agree. */
  lemma {:induction false} HasInboxIffCount(labels: seq<LabelDescriptor>)
    ensures HasInbox(labels) <==> InboxCount(labels) > 0
    decreases |labels|
  {
    if |labels| > 0 {
      HasInboxIffCount(labels[1..]);
      if HasInbox(labels[1..]) {
        var i :| 0 <= i < |labels[1..]| && labels[1..][i].name == InboxLabel;
        assert labels[i + 1].name == InboxLabel;
      }
      if HasInbox(labels) && labels[0].name != InboxLabel {
        var i :| 0 <= i < |labels| && labels[i].name == InboxLabel;
        assert labels[1..][i - 1].name == InboxLabel;
      }
    }
  }

  /**
   * Normalization adds exactly one INBOX entry to a set without one and adds
   * none to a set that already has one (pre-existing duplicates are kept).
   */
  lemma NormalizeInboxCount(labels: seq<LabelDescriptor>)
    ensures InboxCount(labels) == 0 ==> InboxCount(NormalizeLabels(labels)) == 1
    ensures InboxCount(labels) > 0 ==> InboxCount(NormalizeLabels(labels)) == InboxCount(labels)
  {
    HasInboxIffCount(labels);
    if !HasInbox(labels) {
      InboxCountAppend(labels, [InboxEntry()]);
      assert [InboxEntry()][1..] == [];
    }
  }

  /** Normalization is idempotent: a normalized label set is left unchanged. */
  lemma NormalizeIdempotent(labels: seq<LabelDescriptor>)
    ensures NormalizeLabels(NormalizeLabels(labels)) == NormalizeLabels(labels)
  {
  }
}

=== FILE: cycle.dfy ===
/**
 * One triage cycle (`run` in AddLabel.js): validate the configuration, read
 * the watermark (defaulting to one hour before `now`), fetch the threads
 * active after it, advance the stored watermark to `now`, classify the
 * fetched threads batch by batch, writing the pre-cycle watermark back for
 * every rejected reply, and finally re-arm the handler's trigger.
 *
 * A thrown error keeps every mutation made before it and skips the re-arm,
 * so the result always carries the state reached.
 */
module Cycle {
  import opened Wrappers
  import opened Config
  import opened Mailbox
  import opened Batcher
  import opened Classifier
  import opened LabelApplier
  import opened Scheduler

  /** How far back a first cycle looks, in milliseconds. */
  const OneHourMs: int := 60 * 60 * 1000

  /** The persistent state a cycle reads and writes. */
  datatype State = State(watermark: Option<int>, mail: Mailbox, triggers: seq<Trigger>)

  /** One group of fetched threads sent to the classifier in a single request. */
  type Batch = seq<FetchedItem>

  /** The errors that abort a cycle. */
  datatype CycleError =
    | ConfigInvalid(reason: ConfigError)
    | BatchCountRange
    | ClassifierUnreachable
    | ApplyFailed(cause: ApplyError)

  /** The summary a cycle returns: its start time and the number of fetched threads. */
  datatype Summary = Summary(timestamp: int, processed: nat)

  /** The state after some batches, the batches sent so far, and the error that stopped them. */
  datatype Progress = Progress(state: State, sent: seq<Batch>, error: Option<CycleError>)

  /** The final state, the requests sent to the classifier, and the summary or the abort reason. */
  datatype CycleResult = CycleResult(state: State, requests: seq<Batch>, outcome: Result<Summary, CycleError>)

  /** The watermark a cycle filters with: the stored one, else one hour before `now`. */
  function StartWatermark(stored: Option<int>, now: int): (w: int)
    ensures stored.None? ==> w == now - 3600000
    ensures stored.Some? ==> w == stored.value
  {
    match stored
    case Some(w) => w
    case None => now - OneHourMs
  }

  /** Some reply to one of `batches` was absent or not an array. */
  predicate AnyRejected(classify: Batch -> Reply, batches: seq<Batch>) {
    exists i :: 0 <= i < |batches| && Invalid(classify(batches[i]))
  }

  /** Some accepted reply to one of `batches` asks for thread `id` to be labelled. */
  predicate NamedInReplies(classify: Batch -> Reply, batches: seq<Batch>, id: ThreadId) {
    exists i :: 0 <= i < |batches| && classify(batches[i]).ArrayReply?
      && LabelsFor(classify(batches[i]).items, id) != {}
  }

  /**
   * The reply does not stop the batch loop on a mailbox with these threads:
   * it is not a transport failure, and if it is an array none of its
   * elements throws. Absent and non-array replies never stop it.
   */
  predicate Continues(mb: Mailbox, reply: Reply) {
    && !reply.TransportFailure?
    && (reply.ArrayReply? ==> forall j :: 0 <= j < |reply.items| ==> !Fails(mb, reply.items[j]))
  }

  /** A prefix of the tail, preceded by the head, is a prefix of the whole. */
  lemma PrefixCons<T>(s: seq<T>, q: seq<T>)
    requires 0 < |s| && |q| < |s| && q == s[1..][..|q|]
    ensures [s[0]] + q == s[..|q| + 1]
  {
  }

  /**
   * Sends the batches in order. A rejected reply writes `prev` back to the
   * stored watermark and moves on; an accepted one is applied to the
   * mailbox; a transport failure or a throwing element stops the loop.
   */
  function ProcessBatches(st: State, prev: int, batches: seq<Batch>, classify: Batch -> Reply): (p: Progress)
    ensures p.state.triggers == st.triggers
    ensures p.state.mail.order == st.mail.order && p.state.mail.threads.Keys == st.mail.threads.Keys
    ensures WellFormed(st.mail) ==> WellFormed(p.state.mail)
    ensures p.state.watermark == st.watermark || p.state.watermark == Some(prev)
    ensures p.error.None? ==> p.sent == batches
    ensures p.error.Some? ==> !p.error.value.ConfigInvalid? && !p.error.value.BatchCountRange?
    ensures p.error.Some? ==> 0 < |p.sent| <= |batches| && p.sent == batches[..|p.sent|]
    decreases |batches|
  {
    if |batches| == 0 then Progress(st, [], None)
    else
      var b := batches[0];
      match Check(classify(b))
      case Err(Unreachable) => Progress(st, [b], Some(ClassifierUnreachable))
      case Err(Rejected) =>
        var p := ProcessBatches(st.(watermark := Some(prev)), prev, batches[1..], classify);
        PrefixCons(batches, p.sent);
        p.(sent := [b] + p.sent)
      case Ok(items) =>
        var a := ApplyItems(st.mail, items);
        if a.error.Some? then Progress(st.(mail := a.mail), [b], Some(ApplyFailed(a.error.value)))
        else
          var p := ProcessBatches(st.(mail := a.mail), prev, batches[1..], classify);
          PrefixCons(batches, p.sent);
          p.(sent := [b] + p.sent)
  }

  /**
   * The whole cycle. `now` is the start time in milliseconds and `classify`
   * the classification service's reply to each batch.
   */
  function RunCycle(st: State, raw: RawConfig, now: int, classify: Batch -> Reply): (r: CycleResult)
    requires WellFormed(st.mail)
    ensures Validate(raw).Err? ==> r == CycleResult(st, [], Err(ConfigInvalid(Validate(raw).error)))
    ensures r.state.mail.order == st.mail.order && r.state.mail.threads.Keys == st.mail.threads.Keys
    ensures Validate(raw).Ok? ==> r.state.watermark.Some?
    ensures r.outcome.Ok? ==> Validate(raw).Ok? && r.outcome.value.timestamp == now
    ensures r.outcome.Ok? ==>
      r.state.triggers == Rearm(st.triggers, Validate(raw).value.functionName, Validate(raw).value.triggerTime)
    ensures r.outcome.Err? ==> r.state.triggers == st.triggers
  {
    match Validate(raw)
    case Err(e) => CycleResult(st, [], Err(ConfigInvalid(e)))
    case Ok(cfg) =>
      var prev := StartWatermark(st.watermark, now);
      var fetched := Fetch(st.mail, prev);
      var advanced := st.(watermark := Some(now));
      var summary := Summary(now, |fetched|);
      if |fetched| == 0 then
        CycleResult(advanced.(triggers := Rearm(st.triggers, cfg.functionName, cfg.triggerTime)), [], Ok(summary))
      else
        match Batches(fetched, cfg.n)
        case None => CycleResult(advanced, [], Err(BatchCountRange))
        case Some(batches) =>
          var p := ProcessBatches(advanced, prev, batches, classify);
          if p.error.Some? then CycleResult(p.state, p.sent, Err(p.error.value))
          else
            var rearmed := p.state.(triggers := Rearm(p.state.triggers, cfg.functionName, cfg.triggerTime));
            CycleResult(rearmed, p.sent, Ok(summary))
  }
}

=== FILE: mailbox.dfy ===
/**
 * The abstract mailbox the cycle reads and mutates, and the thread fetch of
 * `getNewMessages_`: inbox threads whose last activity is strictly later than
 * the watermark, each paired with the body of its latest message.
 */
module Mailbox {

  type ThreadId = string

  /** A message of a thread: its timestamp in milliseconds and its plain-text body. */
  datatype Message = Message(date: int, body: string)

  /** A mailbox thread: last-activity time, messages, attached user labels, archived flag. */
  datatype MailThread = MailThread(
    lastActivity: int,
    messages: seq<Message>,
    labels: set<string>,
    archived: bool)

  /**
   * The mailbox: `order` is the retrieval order of the threads, `threads`
   * holds each thread by id, `userLabels` the names of existing user labels.
   */
  datatype Mailbox = Mailbox(
    order: seq<ThreadId>,
    threads: map<ThreadId, MailThread>,
    userLabels: set<string>)

  /** One fetched thread as handed to the classifier: `{threadId, message}`. */
  datatype FetchedItem = FetchedItem(threadId: ThreadId, message: string)

  /** Some message carries exactly the thread's last-activity time. */
  predicate HasLastMessage(t: MailThread) {
    exists i :: 0 <= i < |t.messages| && t.messages[i].date == t.lastActivity
  }

  /**
   * Every listed id names a thread, and every thread has a message dated at
   * its last-activity time (the mailbox reports the latter as the date of the former).
   */
  predicate WellFormed(mb: Mailbox) {
    && (forall i :: 0 <= i < |mb.order| ==> mb.order[i] in mb.threads)
    && (forall id :: id in mb.threads ==> HasLastMessage(mb.threads[id]))
  }

  /** A thread is fetched when it is in the inbox and active strictly after the watermark. */
  predicate Fetchable(t: MailThread, watermark: int) {
    !t.archived && t.lastActivity > watermark
  }

  /** Index of the first message dated `date`; ties go to the earliest in retrieval order. */
  function FirstAt(msgs: seq<Message>, date: int): (k: nat)
    requires exists i :: 0 <= i < |msgs| && msgs[i].date == date
    ensures k < |msgs| && msgs[k].date == date
    ensures forall j :: 0 <= j < k ==> msgs[j].date != date
    decreases |msgs|
  {
    if msgs[0].date == date then 0
    else
      var i :| 0 <= i < |msgs| && msgs[i].date == date;
      assert msgs[1..][i - 1].date == date;
      1 + FirstAt(msgs[1..], date)
  }

  /** The latest message of a thread: the first one dated at its last activity. */
  function LastMessage(t: MailThread): (m: Message)
    requires HasLastMessage(t)
    ensures m.date == t.lastActivity
    ensures m in t.messages
    ensures exists k ::
      && 0 <= k < |t.messages|
      && m == t.messages[k]
      && forall j :: 0 <= j < k ==> t.messages[j].date != t.lastActivity
  {
    t.messages[FirstAt(t.messages, t.lastActivity)]
  }

  /** The thread ids of a fetched list, in order. */
  function Ids(items: seq<FetchedItem>): (ids: seq<ThreadId>)
    ensures |ids| == |items|
    ensures forall k :: 0 <= k < |items| ==> ids[k] == items[k].threadId
  {
    if |items| == 0 then [] else [items[0].threadId] + Ids(items[1..])
  }

  /** `a` can be obtained from `b` by deleting elements (order is kept). */
  predicate SubsequenceOf<T(==)>(a: seq<T>, b: seq<T>)
    decreases |b|
  {
    if |a| == 0 then true
    else if |b| == 0 then false
    else if a[0] == b[0] then SubsequenceOf(a[1..], b[1..])
    else SubsequenceOf(a, b[1..])
  }

  /**
   * Walks `ids` in retrieval order and keeps the fetchable threads, each
   * paired with the body of its latest message.
   */
  function FetchFrom(ids: seq<ThreadId>, threads: map<ThreadId, MailThread>, watermark: int)
    : (r: seq<FetchedItem>)
    requires forall i :: 0 <= i < |ids| ==> ids[i] in threads
    requires forall id :: id in threads ==> HasLastMessage(threads[id])
    ensures SubsequenceOf(Ids(r), ids)
    ensures forall k :: 0 <= k < |r| ==>
      && r[k].threadId in threads
      && Fetchable(threads[r[k].threadId], watermark)
      && r[k].message == LastMessage(threads[r[k].threadId]).body
    ensures forall i :: 0 <= i < |ids| && Fetchable(threads[ids[i]], watermark) ==>
      ids[i] in Ids(r)
    decreases |ids|
  {
    if |ids| == 0 then []
    else
      var rest := FetchFrom(ids[1..], threads, watermark);
      assert FetchedFrom(rest, ids[1..], threads, watermark);
      var t := threads[ids[0]];
      if Fetchable(t, watermark) then
        FetchFromKeep(ids, threads, watermark, rest);
        [FetchedItem(ids[0], LastMessage(t).body)] + rest
      else
        FetchFromSkip(ids, threads, watermark, rest);
        rest
  }

  /**
   * `r` is a sound, complete, order-keeping fetch from `ids`: the
   * postcondition of `FetchFrom`, as a predicate for its step lemmas.
   */
  predicate FetchedFrom(r: seq<FetchedItem>, ids: seq<ThreadId>, threads: map<ThreadId, MailThread>, watermark: int)
    requires forall i :: 0 <= i < |ids| ==> ids[i] in threads
    requires forall id :: id in threads ==> HasLastMessage(threads[id])
  {
    && SubsequenceOf(Ids(r), ids)
    && (forall k :: 0 <= k < |r| ==>
          && r[k].threadId in threads
          && Fetchable(threads[r[k].threadId], watermark)
          && r[k].message == LastMessage(threads[r[k].threadId]).body)
    && (forall i :: 0 <= i < |ids| && Fetchable(threads[ids[i]], watermark) ==> ids[i] in Ids(r))
  }

  /** A fetchable head in front of the tail's fetch is the whole list's fetch. */
  lemma FetchFromKeep(ids: seq<ThreadId>, threads: map<ThreadId, MailThread>, watermark: int, rest: seq<FetchedItem>)
    requires |ids| > 0
    requires forall i :: 0 <= i < |ids| ==> ids[i] in threads
    requires forall id :: id in threads ==> HasLastMessage(threads[id])
    requires Fetchable(threads[ids[0]], watermark)
    requires FetchedFrom(rest, ids[1..], threads, watermark)
    ensures FetchedFrom([FetchedItem(ids[0], LastMessage(threads[ids[0]]).body)] + rest, ids, threads, watermark)
  {
    var r := [FetchedItem(ids[0], LastMessage(threads[ids[0]]).body)] + rest;
    assert forall i :: 1 <= i < |ids| ==> ids[i] == ids[1..][i - 1];
    assert Ids(r)[1..] == Ids(rest);
    assert forall k :: 1 <= k < |r| ==> r[k] == rest[k - 1];
  }

  /** When the head is not fetchable, the tail's fetch is the whole list's fetch. */
  lemma FetchFromSkip(ids: seq<ThreadId>, threads: map<ThreadId, MailThread>, watermark: int, rest: seq<FetchedItem>)
    requires |ids| > 0
    requires forall i :: 0 <= i < |ids| ==> ids[i] in threads
    requires forall id :: id in threads ==> HasLastMessage(threads[id])
    requires !Fetchable(threads[ids[0]], watermark)
    requires FetchedFrom(rest, ids[1..], threads, watermark)
    ensures FetchedFrom(rest, ids, threads, watermark)
  {
    assert forall i :: 1 <= i < |ids| ==> ids[i] == ids[1..][i - 1];
  }

  /**
   * The threads fetched for a cycle whose watermark is `watermark`: the
   * inbox threads active strictly after it, in retrieval order.
   */
  function Fetch(mb: Mailbox, watermark: int): (r: seq<FetchedItem>)
    requires WellFormed(mb)
    ensures SubsequenceOf(Ids(r), mb.order)
    ensures forall k :: 0 <= k < |r| ==>
      && r[k].threadId in mb.threads
      && !mb.threads[r[k].threadId].archived
      && mb.threads[r[k].threadId].lastActivity > watermark
      && r[k].message == LastMessage(mb.threads[r[k].threadId]).body
  {
    FetchFrom(mb.order, mb.threads, watermark)
  }

  /** The ids of a list with a head pushed in front. */
  lemma IdsCons(item: FetchedItem, rest: seq<FetchedItem>)
    ensures Ids([item] + rest) == [item.threadId] + Ids(rest)
  {
    assert ([item] + rest)[1..] == rest;
  }

  /** An element's multiplicity after a head is pushed in front. */
  lemma CountCons<T>(x: T, xs: seq<T>, y: T)
    ensures multiset([x] + xs)[y] == (if x == y then 1 else 0) + multiset(xs)[y]
  {
    assert multiset([x] + xs) == multiset([x]) + multiset(xs);
  }

  /**
   * Each thread is fetched as many times as the listing names it when it is
   * fetchable, and never otherwise.
   */
  lemma {:induction false} FetchFromCounts(
    ids: seq<ThreadId>, threads: map<ThreadId, MailThread>, watermark: int, id: ThreadId)
    requires forall i :: 0 <= i < |ids| ==> ids[i] in threads
    requires forall t :: t in threads ==> HasLastMessage(threads[t])
    requires id in threads
    ensures multiset(Ids(FetchFrom(ids, threads, watermark)))[id]
      == if Fetchable(threads[id], watermark) then multiset(ids)[id] else 0
    decreases |ids|
  {
    if |ids| > 0 {
      FetchFromCounts(ids[1..], threads, watermark, id);
      var rest := FetchFrom(ids[1..], threads, watermark);
      var x := ids[0];
      assert ids == [x] + ids[1..];
      CountCons(x, ids[1..], id);
      if Fetchable(threads[x], watermark) {
        assert FetchFrom(ids, threads, watermark) == [FetchedItem(x, LastMessage(threads[x]).body)] + rest;
        IdsCons(FetchedItem(x, LastMessage(threads[x]).body), rest);
        CountCons(x, Ids(rest), id);
      } else {
        assert FetchFrom(ids, threads, watermark) == rest;
      }
    }
  }

  /**
   * A cycle's fetch takes every inbox thread active strictly after the
   * watermark exactly as many times as the listing names it, and no other thread.
   */
  lemma FetchCounts(mb: Mailbox, watermark: int, id: ThreadId)
    requires WellFormed(mb)
    requires id in mb.threads
    ensures !mb.threads[id].archived && mb.threads[id].lastActivity > watermark ==>
      multiset(Ids(Fetch(mb, watermark)))[id] == multiset(mb.order)[id]
    ensures mb.threads[id].archived || mb.threads[id].lastActivity <= watermark ==>
      id !in Ids(Fetch(mb, watermark))
  {
    FetchFromCounts(mb.order, mb.threads, watermark, id);
  }

  /** Archives the thread and attaches `label`, creating the user label if absent. */
  function ApplyLabel(mb: Mailbox, id: ThreadId, name: string): (r: Mailbox)
    requires id in mb.threads
    ensures r.order == mb.order && r.threads.Keys == mb.threads.Keys
    ensures name in r.userLabels && r.userLabels - {name} == mb.userLabels - {name}
    ensures r.threads[id].archived && r.threads[id].labels == mb.threads[id].labels + {name}
    ensures r.threads[id].lastActivity == mb.threads[id].lastActivity
    ensures r.threads[id].messages == mb.threads[id].messages
    ensures forall other :: other in mb.threads && other != id ==> r.threads[other] == mb.threads[other]
  {
    var t := mb.threads[id];
    mb.(threads := mb.threads[id := t.(archived := true, labels := t.labels + {name})],
        userLabels := mb.userLabels + {name})
  }
}

=== FILE: properties.dfy ===
/**
 * Properties of the batch loop and of the composed cycle: which watermark a
 * cycle leaves behind, which threads it may touch and how, what it sends to
 * the classifier, what it returns, and when it re-arms.
 */
module CycleProperties {
  import opened Wrappers
  import opened Config
  import opened Mailbox
  import opened Batcher
  import opened Classifier
  import opened LabelApplier
  import opened Scheduler
  import opened Cycle

  /** The labels the accepted replies to `batches` attach to thread `id`. */
  function RepliedLabels(classify: Batch -> Reply, batches: seq<Batch>, id: ThreadId): set<string>
    decreases |batches|
  {
    if |batches| == 0 then {}
    else
      var reply := classify(batches[0]);
      (if reply.ArrayReply? then LabelsFor(reply.items, id) else {}) + RepliedLabels(classify, batches[1..], id)
  }

  /** The label names the accepted replies to `batches` make exist. */
  function RepliedNewLabels(classify: Batch -> Reply, batches: seq<Batch>): set<string>
    decreases |batches|
  {
    if |batches| == 0 then {}
    else
      var reply := classify(batches[0]);
      (if reply.ArrayReply? then NewLabels(reply.items) else {}) + RepliedNewLabels(classify, batches[1..])
  }

  /** Receiving labels in two steps is receiving their union. */
  lemma RelabelTwice(t: MailThread, a: set<string>, b: set<string>)
    ensures Relabel(Relabel(t, a), b) == Relabel(t, a + b)
  {
  }

  /**
   * The stored watermark after the batch loop is the written-back `prev` if
   * any reply sent was rejected, and the incoming value otherwise:
   * accepted replies never write it.
   */
  lemma {:induction false} ProcessWatermark(st: State, prev: int, batches: seq<Batch>, classify: Batch -> Reply)
    ensures var p := ProcessBatches(st, prev, batches, classify);
      p.state.watermark == if AnyRejected(classify, p.sent) then Some(prev) else st.watermark
    decreases |batches|
  {
    if |batches| > 0 {
      var b := batches[0];
      var p := ProcessBatches(st, prev, batches, classify);
      match Check(classify(b))
      case Err(Unreachable) =>
        AnyRejectedCons(classify, b, []);
      case Err(Rejected) =>
        var st' := st.(watermark := Some(prev));
        ProcessWatermark(st', prev, batches[1..], classify);
        AnyRejectedCons(classify, b, ProcessBatches(st', prev, batches[1..], classify).sent);
      case Ok(items) =>
        var a := ApplyItems(st.mail, items);
        if a.error.None? {
          var st' := st.(mail := a.mail);
          ProcessWatermark(st', prev, batches[1..], classify);
          AnyRejectedCons(classify, b, ProcessBatches(st', prev, batches[1..], classify).sent);
        } else {
          AnyRejectedCons(classify, b, []);
        }
    }
  }

  /** Some reply to a list was rejected exactly when its head's or one of the tail's was. */
  lemma AnyRejectedCons(classify: Batch -> Reply, b: Batch, rest: seq<Batch>)
    ensures AnyRejected(classify, [b] + rest) <==> Invalid(classify(b)) || AnyRejected(classify, rest)
  {
    var bs := [b] + rest;
    assert bs[0] == b;
    if AnyRejected(classify, rest) {
      var i :| 0 <= i < |rest| && Invalid(classify(rest[i]));
      assert bs[i + 1] == rest[i];
    }
    if AnyRejected(classify, bs) {
      var i :| 0 <= i < |bs| && Invalid(classify(bs[i]));
      if i > 0 {
        assert bs[i] == rest[i - 1];
      }
    }
  }

  /** A thread is named in the replies to a list exactly when its head's reply or the tail's names it. */
  lemma NamedInRepliesCons(classify: Batch -> Reply, b: Batch, rest: seq<Batch>, id: ThreadId)
    ensures NamedInReplies(classify, [b] + rest, id)
      <==> (classify(b).ArrayReply? && LabelsFor(classify(b).items, id) != {}) || NamedInReplies(classify, rest, id)
  {
    var bs := [b] + rest;
    assert bs[0] == b;
    if NamedInReplies(classify, rest, id) {
      var i :| 0 <= i < |rest| && classify(rest[i]).ArrayReply? && LabelsFor(classify(rest[i]).items, id) != {};
      assert bs[i + 1] == rest[i];
    }
    if NamedInReplies(classify, bs, id) {
      var i :| 0 <= i < |bs| && classify(bs[i]).ArrayReply? && LabelsFor(classify(bs[i]).items, id) != {};
      if i > 0 {
        assert bs[i] == rest[i - 1];
      }
    }
  }

  /**
   * A thread that no accepted reply to the sent batches names keeps its
   * state through the batch loop, even when the loop stops part-way.
   */
  lemma {:induction false} ProcessUntouched(
    st: State, prev: int, batches: seq<Batch>, classify: Batch -> Reply, id: ThreadId)
    requires id in st.mail.threads
    requires !NamedInReplies(classify, ProcessBatches(st, prev, batches, classify).sent, id)
    ensures ProcessBatches(st, prev, batches, classify).state.mail.threads[id] == st.mail.threads[id]
    decreases |batches|
  {
    if |batches| > 0 {
      var b := batches[0];
      var p := ProcessBatches(st, prev, batches, classify);
      match Check(classify(b))
      case Err(Unreachable) =>
      case Err(Rejected) =>
        var st' := st.(watermark := Some(prev));
        var q := ProcessBatches(st', prev, batches[1..], classify);
        NamedInRepliesCons(classify, b, q.sent, id);
        ProcessUntouched(st', prev, batches[1..], classify, id);
      case Ok(items) =>
        var a := ApplyItems(st.mail, items);
        if a.error.None? {
          var st' := st.(mail := a.mail);
          var q := ProcessBatches(st', prev, batches[1..], classify);
          NamedInRepliesCons(classify, b, q.sent, id);
          ApplyItemsUntouched(st.mail, items, id);
          ProcessUntouched(st', prev, batches[1..], classify, id);
        } else {
          NamedInRepliesCons(classify, b, [], id);
          ApplyItemsUntouched(st.mail, items, id);
        }
    }
  }

  /**
   * When the batch loop runs to the end, every thread has received exactly
   * the labels the accepted replies name for it: it is archived and carries
   * them when there are any, and is unchanged otherwise.
   */
  lemma {:induction false} ProcessEffect(
    st: State, prev: int, batches: seq<Batch>, classify: Batch -> Reply, id: ThreadId)
    requires id in st.mail.threads
    requires ProcessBatches(st, prev, batches, classify).error.None?
    ensures ProcessBatches(st, prev, batches, classify).state.mail.threads[id]
      == Relabel(st.mail.threads[id], RepliedLabels(classify, batches, id))
    decreases |batches|
  {
    if |batches| > 0 {
      var b := batches[0];
      match Check(classify(b))
      case Err(Rejected) =>
        ProcessEffect(st.(watermark := Some(prev)), prev, batches[1..], classify, id);
      case Ok(items) =>
        var a := ApplyItems(st.mail, items);
        ApplyItemsEffect(st.mail, items, id);
        ProcessEffect(st.(mail := a.mail), prev, batches[1..], classify, id);
        RelabelTwice(st.mail.threads[id], LabelsFor(items, id), RepliedLabels(classify, batches[1..], id));
    }
  }

  /**
   * The batch loop never deletes a user label and creates none but the
   * active labels the accepted replies to the sent batches name; when it
   * runs to the end it creates exactly those.
   */
  lemma {:induction false} ProcessUserLabels(st: State, prev: int, batches: seq<Batch>, classify: Batch -> Reply)
    ensures var p := ProcessBatches(st, prev, batches, classify);
      && st.mail.userLabels <= p.state.mail.userLabels
      && p.state.mail.userLabels <= st.mail.userLabels + RepliedNewLabels(classify, p.sent)
    ensures var p := ProcessBatches(st, prev, batches, classify);
      p.error.None? ==> p.state.mail.userLabels == st.mail.userLabels + RepliedNewLabels(classify, batches)
    decreases |batches|
  {
    if |batches| > 0 {
      var b := batches[0];
      var p := ProcessBatches(st, prev, batches, classify);
      match Check(classify(b))
      case Err(Unreachable) =>
      case Err(Rejected) =>
        var st' := st.(watermark := Some(prev));
        ProcessUserLabels(st', prev, batches[1..], classify);
        var q := ProcessBatches(st', prev, batches[1..], classify);
        assert p.sent[0] == b && p.sent[1..] == q.sent;
      case Ok(items) =>
        var a := ApplyItems(st.mail, items);
        ApplyItemsUserLabelsBound(st.mail, items);
        if a.error.None? {
          ApplyItemsUserLabels(st.mail, items);
          var st' := st.(mail := a.mail);
          ProcessUserLabels(st', prev, batches[1..], classify);
          var q := ProcessBatches(st', prev, batches[1..], classify);
          assert p.sent[0] == b && p.sent[1..] == q.sent;
        } else {
          assert p.sent == [b] && p.sent[1..] == [];
        }
    }
  }

  /**
   * The batch loop runs to the end exactly when every reply continues it:
   * a rejected reply never stops it, only a transport failure or an
   * accepted reply with a throwing element does.
   */
  lemma {:induction false} ProcessCompletes(st: State, prev: int, batches: seq<Batch>, classify: Batch -> Reply)
    ensures ProcessBatches(st, prev, batches, classify).error.None?
      <==> forall i :: 0 <= i < |batches| ==> Continues(st.mail, classify(batches[i]))
    decreases |batches|
  {
    if |batches| > 0 {
      var b := batches[0];
      assert forall i :: 1 <= i < |batches| ==> batches[i] == batches[1..][i - 1];
      match Check(classify(b))
      case Err(Unreachable) =>
      case Err(Rejected) =>
        ProcessCompletes(st.(watermark := Some(prev)), prev, batches[1..], classify);
      case Ok(items) =>
        ApplyItemsFails(st.mail, items);
        var a := ApplyItems(st.mail, items);
        if a.error.None? {
          ProcessCompletes(st.(mail := a.mail), prev, batches[1..], classify);
          assert forall rp :: Continues(a.mail, rp) <==> Continues(st.mail, rp);
        }
    }
  }

  /**
   * The batch loop stops at the first reply that does not continue it: when
   * it stops, the last batch sent is the first whose reply is a transport
   * failure or an accepted array with a throwing element, and no later batch
   * is sent.
   */
  lemma {:induction false} ProcessStopsAtFirst(st: State, prev: int, batches: seq<Batch>, classify: Batch -> Reply)
    ensures var p := ProcessBatches(st, prev, batches, classify);
      p.error.Some? ==>
        && !Continues(st.mail, classify(batches[|p.sent| - 1]))
        && forall i :: 0 <= i < |p.sent| - 1 ==> Continues(st.mail, classify(batches[i]))
    decreases |batches|
  {
    if |batches| > 0 {
      var b := batches[0];
      var p := ProcessBatches(st, prev, batches, classify);
      match Check(classify(b))
      case Err(Unreachable) =>
      case Err(Rejected) =>
        var st' := st.(watermark := Some(prev));
        ProcessStopsAtFirst(st', prev, batches[1..], classify);
        var q := ProcessBatches(st', prev, batches[1..], classify);
        if p.error.Some? {
          assert |p.sent| == |q.sent| + 1;
          assert forall i :: 1 <= i < |batches| ==> batches[i] == batches[1..][i - 1];
        }
      case Ok(items) =>
        ApplyItemsFails(st.mail, items);
        var a := ApplyItems(st.mail, items);
        if a.error.None? {
          ProcessStopsAtFirst(st.(mail := a.mail), prev, batches[1..], classify);
          var q := ProcessBatches(st.(mail := a.mail), prev, batches[1..], classify);
          if p.error.Some? {
            assert |p.sent| == |q.sent| + 1;
            assert forall i :: 1 <= i < |batches| ==> batches[i] == batches[1..][i - 1];
            assert forall rp :: Continues(a.mail, rp) <==> Continues(st.mail, rp);
          }
        }
    }
  }

  /**
   * The batch loop stopped after sending `|p.sent|` batches and kept the
   * mutations made before the stop: the batches before the last one sent
   * ran to the end, and the last one's reply either was an accepted array
   * whose elements were applied up to the one that throws, or was a
   * transport failure that changed nothing.
   */
  predicate StopKeeps(st: State, prev: int, batches: seq<Batch>, classify: Batch -> Reply, p: Progress) {
    && 0 < |p.sent| <= |batches|
    && var k := |p.sent| - 1;
       var q := ProcessBatches(st, prev, batches[..k], classify);
       var reply := classify(batches[k]);
       && q.error.None?
       && (reply.ArrayReply? ==>
             && ApplyItems(q.state.mail, reply.items).error.Some?
             && p.state == q.state.(mail := ApplyItems(q.state.mail, reply.items).mail)
             && p.error == Some(ApplyFailed(ApplyItems(q.state.mail, reply.items).error.value)))
       && (!reply.ArrayReply? ==>
             reply.TransportFailure? && p.state == q.state && p.error == Some(ClassifierUnreachable))
  }

  /** A stop in the tail after a first batch that continued is a stop in the whole list. */
  lemma StopKeepsCons(st: State, st': State, prev: int, batches: seq<Batch>, classify: Batch -> Reply, p': Progress)
    requires |batches| > 0
    requires ProcessBatches(st, prev, [batches[0]], classify) == Progress(st', [batches[0]], None)
    requires StopKeeps(st', prev, batches[1..], classify, p')
    ensures StopKeeps(st, prev, batches, classify, p'.(sent := [batches[0]] + p'.sent))
  {
    var k := |p'.sent|;
    var x := batches[..k];
    assert x[0] == batches[0] && x[1..] == batches[1..][..k - 1];
    assert batches[k] == batches[1..][k - 1];
    assert [batches[0]][1..] == [];
  }

  /**
   * A stop keeps the mutations made before it: the state after a stopped
   * batch loop is the state the batches before the last one left (they ran
   * to the end), with, for a throwing accepted reply, the elements before
   * the throwing one applied; a transport failure changes nothing further.
   */
  lemma {:induction false} ProcessAbortState(st: State, prev: int, batches: seq<Batch>, classify: Batch -> Reply)
    ensures var p := ProcessBatches(st, prev, batches, classify);
      p.error.Some? ==> StopKeeps(st, prev, batches, classify, p)
    decreases |batches|
  {
    if |batches| > 0 {
      var b := batches[0];
      var p := ProcessBatches(st, prev, batches, classify);
      match Check(classify(b))
      case Err(Unreachable) =>
        assert batches[..0] == [];
      case Err(Rejected) =>
        var st' := st.(watermark := Some(prev));
        ProcessAbortState(st', prev, batches[1..], classify);
        var p' := ProcessBatches(st', prev, batches[1..], classify);
        if p.error.Some? {
          assert [b][1..] == [];
          StopKeepsCons(st, st', prev, batches, classify, p');
        }
      case Ok(items) =>
        var a := ApplyItems(st.mail, items);
        if a.error.Some? {
          assert batches[..0] == [];
        } else {
          var st' := st.(mail := a.mail);
          ProcessAbortState(st', prev, batches[1..], classify);
          var p' := ProcessBatches(st', prev, batches[1..], classify);
          if p.error.Some? {
            assert [b][1..] == [];
            StopKeepsCons(st, st', prev, batches, classify, p');
          }
        }
    }
  }

  /**
   * A validated cycle completes, and so re-arms, exactly when nothing was
   * fetched, or the batching succeeds and every reply continues the batch
   * loop.
   */
  lemma CycleCompletes(st: State, raw: RawConfig, now: int, classify: Batch -> Reply)
    requires WellFormed(st.mail)
    requires Validate(raw).Ok?
    ensures var fetched := Fetch(st.mail, StartWatermark(st.watermark, now));
      var batches := Batches(fetched, Validate(raw).value.n);
      RunCycle(st, raw, now, classify).outcome.Ok? <==>
        || fetched == []
        || (&& batches.Some?
            && forall i :: 0 <= i < |batches.value| ==> Continues(st.mail, classify(batches.value[i])))
  {
    var cfg := Validate(raw).value;
    var prev := StartWatermark(st.watermark, now);
    var fetched := Fetch(st.mail, prev);
    var advanced := st.(watermark := Some(now));
    if |fetched| > 0 && Batches(fetched, cfg.n).Some? {
      ProcessCompletes(advanced, prev, Batches(fetched, cfg.n).value, classify);
    }
  }

  /**
   * When every reply is rejected the batch loop sends every batch, completes,
   * and changes nothing but the stored watermark, which it sets to `prev`.
   */
  lemma {:induction false} ProcessAllRejected(st: State, prev: int, batches: seq<Batch>, classify: Batch -> Reply)
    requires forall i :: 0 <= i < |batches| ==> Invalid(classify(batches[i]))
    ensures ProcessBatches(st, prev, batches, classify)
      == Progress(if batches == [] then st else st.(watermark := Some(prev)), batches, None)
    decreases |batches|
  {
    if |batches| > 0 {
      assert Invalid(classify(batches[0]));
      assert forall i :: 1 <= i < |batches| ==> batches[i] == batches[1..][i - 1];
      ProcessAllRejected(st.(watermark := Some(prev)), prev, batches[1..], classify);
      assert [batches[0]] + batches[1..] == batches;
    }
  }

  /**
   * Rejected replies are not fatal: when every reply is absent or not an
   * array and the batch size is positive, the cycle completes, reports every
   * fetched thread, and leaves the pre-cycle watermark in place (or `now`
   * when nothing was fetched).
   */
  lemma RejectedRepliesNotFatal(st: State, raw: RawConfig, now: int, classify: Batch -> Reply)
    requires WellFormed(st.mail)
    requires Validate(raw).Ok? && Validate(raw).value.n > 0
    requires forall b :: Invalid(classify(b))
    ensures var r := RunCycle(st, raw, now, classify);
      var prev := StartWatermark(st.watermark, now);
      var fetched := Fetch(st.mail, prev);
      && r.outcome == Ok(Summary(now, |fetched|))
      && r.state.watermark == (if fetched == [] then Some(now) else Some(prev))
  {
    var cfg := Validate(raw).value;
    var prev := StartWatermark(st.watermark, now);
    var fetched := Fetch(st.mail, prev);
    if fetched != [] {
      BatchesMeaning(fetched, cfg.n);
      var batches := Chunk(fetched, cfg.n);
      assert batches != [] by {
        assert Flatten(batches) == fetched;
      }
      ProcessAllRejected(st.(watermark := Some(now)), prev, batches, classify);
    }
  }

  /** A cycle in which every reply is absent or not an array changes no thread. */
  lemma RejectedRepliesChangeNoThread(st: State, raw: RawConfig, now: int, classify: Batch -> Reply, id: ThreadId)
    requires WellFormed(st.mail)
    requires id in st.mail.threads
    requires forall b :: Invalid(classify(b))
    ensures RunCycle(st, raw, now, classify).state.mail.threads[id] == st.mail.threads[id]
  {
    CycleUntouched(st, raw, now, classify, id);
  }

  /**
   * A configuration error aborts the cycle before anything is read or
   * written: no watermark, mailbox or trigger change and no request.
   */
  lemma CycleConfigError(st: State, raw: RawConfig, now: int, classify: Batch -> Reply)
    requires WellFormed(st.mail)
    ensures var r := RunCycle(st, raw, now, classify);
      (r.outcome.Err? && r.outcome.error.ConfigInvalid?) <==>
      (!TruthyString(raw.functionName) || !TruthyString(raw.apiKey) || !raw.labelObj.LabelArray?)
    ensures var r := RunCycle(st, raw, now, classify);
      r.outcome.Err? && r.outcome.error.ConfigInvalid? ==> r.state == st && r.requests == []
  {
    var r := RunCycle(st, raw, now, classify);
    if Validate(raw).Ok? {
      assert !(r.outcome.Err? && r.outcome.error.ConfigInvalid?);
    }
  }

  /**
   * After a cycle that got past validation the stored watermark is the
   * pre-cycle value (one hour before `now` when none was stored) if any
   * reply was rejected, and `now` otherwise, whether or not the cycle
   * later aborted.
   */
  lemma CycleWatermark(st: State, raw: RawConfig, now: int, classify: Batch -> Reply)
    requires WellFormed(st.mail)
    requires Validate(raw).Ok?
    ensures var r := RunCycle(st, raw, now, classify);
      var prev := if st.watermark.Some? then st.watermark.value else now - 3600000;
      r.state.watermark == if AnyRejected(classify, r.requests) then Some(prev) else Some(now)
  {
    var cfg := Validate(raw).value;
    var prev := StartWatermark(st.watermark, now);
    var fetched := Fetch(st.mail, prev);
    var advanced := st.(watermark := Some(now));
    if |fetched| > 0 && Batches(fetched, cfg.n).Some? {
      ProcessWatermark(advanced, prev, Batches(fetched, cfg.n).value, classify);
    }
  }

  /**
   * The threads a cycle fetches are the inbox threads active strictly after
   * the pre-cycle watermark, in retrieval order; with none, no request is
   * made. A completed cycle reports their number, and with a positive batch
   * size sends them as the batches of `Chunk`, so every fetched thread is
   * sent exactly once and in order.
   */
  lemma CycleRequests(st: State, raw: RawConfig, now: int, classify: Batch -> Reply)
    requires WellFormed(st.mail)
    requires Validate(raw).Ok?
    ensures var r := RunCycle(st, raw, now, classify);
      var fetched := Fetch(st.mail, StartWatermark(st.watermark, now));
      && (fetched == [] ==> r.requests == [] && r.outcome.Ok?)
      && (r.outcome.Ok? ==> r.outcome.value == Summary(now, |fetched|))
      && (r.outcome.Ok? && Validate(raw).value.n > 0 ==>
            r.requests == Chunk(fetched, Validate(raw).value.n) && Flatten(r.requests) == fetched)
  {
    var cfg := Validate(raw).value;
    var prev := StartWatermark(st.watermark, now);
    var fetched := Fetch(st.mail, prev);
    var r := RunCycle(st, raw, now, classify);
    if |fetched| > 0 {
      if cfg.n > 0 {
        BatchesMeaning(fetched, cfg.n);
      }
      match Batches(fetched, cfg.n)
      case None =>
      case Some(batches) =>
        var p := ProcessBatches(st.(watermark := Some(now)), prev, batches, classify);
        if p.error.None? {
          assert r.requests == batches;
        }
    }
  }

  /**
   * A completed cycle leaves exactly one trigger bound to the handler, with
   * the configured interval, and the other handlers' triggers as they were;
   * a cycle that aborts leaves every trigger as it was, so the chain of
   * re-arms stops.
   */
  lemma CycleTriggers(st: State, raw: RawConfig, now: int, classify: Batch -> Reply)
    requires WellFormed(st.mail)
    ensures var r := RunCycle(st, raw, now, classify);
      r.outcome.Ok? ==>
        && Validate(raw).Ok?
        && BoundTo(r.state.triggers, raw.functionName.value)
             == [Trigger(raw.functionName.value, Validate(raw).value.triggerTime)]
        && forall h :: h != raw.functionName.value ==> BoundTo(r.state.triggers, h) == BoundTo(st.triggers, h)
    ensures var r := RunCycle(st, raw, now, classify);
      r.outcome.Err? ==> r.state.triggers == st.triggers
  {
  }

  /**
   * A cycle changes only threads that an accepted reply names with a label
   * other than "INBOX"; the thread list and the thread set are kept, and the
   * mailbox stays well formed for the next cycle.
   */
  lemma CycleUntouched(st: State, raw: RawConfig, now: int, classify: Batch -> Reply, id: ThreadId)
    requires WellFormed(st.mail)
    requires id in st.mail.threads
    requires !NamedInReplies(classify, RunCycle(st, raw, now, classify).requests, id)
    ensures id in RunCycle(st, raw, now, classify).state.mail.threads
    ensures RunCycle(st, raw, now, classify).state.mail.threads[id] == st.mail.threads[id]
  {
    if Validate(raw).Ok? {
      var cfg := Validate(raw).value;
      var prev := StartWatermark(st.watermark, now);
      var fetched := Fetch(st.mail, prev);
      if |fetched| > 0 && Batches(fetched, cfg.n).Some? {
        var p := ProcessBatches(st.(watermark := Some(now)), prev, Batches(fetched, cfg.n).value, classify);
        assert RunCycle(st, raw, now, classify).state.mail == p.state.mail;
        assert RunCycle(st, raw, now, classify).requests == p.sent;
        ProcessUntouched(st.(watermark := Some(now)), prev, Batches(fetched, cfg.n).value, classify, id);
      }
    }
  }

  /** The mailbox a cycle leaves is well formed and keeps its threads and their order. */
  lemma CycleKeepsMailbox(st: State, raw: RawConfig, now: int, classify: Batch -> Reply)
    requires WellFormed(st.mail)
    ensures var r := RunCycle(st, raw, now, classify);
      && WellFormed(r.state.mail)
      && r.state.mail.order == st.mail.order
      && r.state.mail.threads.Keys == st.mail.threads.Keys
  {
    if Validate(raw).Ok? {
      var cfg := Validate(raw).value;
      var prev := StartWatermark(st.watermark, now);
      var fetched := Fetch(st.mail, prev);
      var advanced := st.(watermark := Some(now));
      if |fetched| > 0 && Batches(fetched, cfg.n).Some? {
        var p := ProcessBatches(advanced, prev, Batches(fetched, cfg.n).value, classify);
        assert WellFormed(p.state.mail);
      }
    }
  }

  /**
   * In a completed cycle every thread ends with exactly the labels the
   * accepted replies to the requests name for it: archived and labelled if
   * there are any, unchanged otherwise.
   */
  lemma CycleEffect(st: State, raw: RawConfig, now: int, classify: Batch -> Reply, id: ThreadId)
    requires WellFormed(st.mail)
    requires id in st.mail.threads
    requires RunCycle(st, raw, now, classify).outcome.Ok?
    ensures var r := RunCycle(st, raw, now, classify);
      r.state.mail.threads[id] == Relabel(st.mail.threads[id], RepliedLabels(classify, r.requests, id))
  {
    var cfg := Validate(raw).value;
    var prev := StartWatermark(st.watermark, now);
    var fetched := Fetch(st.mail, prev);
    var advanced := st.(watermark := Some(now));
    if |fetched| > 0 {
      ProcessEffect(advanced, prev, Batches(fetched, cfg.n).value, classify, id);
    }
  }

  /**
   * A cycle never deletes a user label and creates none but the active
   * labels the accepted replies name; a completed cycle creates exactly those.
   */
  lemma CycleUserLabels(st: State, raw: RawConfig, now: int, classify: Batch -> Reply)
    requires WellFormed(st.mail)
    ensures var r := RunCycle(st, raw, now, classify);
      && st.mail.userLabels <= r.state.mail.userLabels
      && r.state.mail.userLabels <= st.mail.userLabels + RepliedNewLabels(classify, r.requests)
    ensures var r := RunCycle(st, raw, now, classify);
      r.outcome.Ok? ==> r.state.mail.userLabels == st.mail.userLabels + RepliedNewLabels(classify, r.requests)
  {
    if Validate(raw).Ok? {
      var cfg := Validate(raw).value;
      var prev := StartWatermark(st.watermark, now);
      var fetched := Fetch(st.mail, prev);
      if |fetched| > 0 && Batches(fetched, cfg.n).Some? {
        ProcessUserLabels(st.(watermark := Some(now)), prev, Batches(fetched, cfg.n).value, classify);
      }
    }
  }
}

=== FILE: scenario.dfy ===
/**
 * A concrete cycle: two inbox threads active after the stored watermark,
 * batch size five, and a reply that labels the first "academic" and the
 * second "INBOX".
 */
module Scenario {
  import opened Wrappers
  import opened Config
  import opened Mailbox
  import opened Batcher
  import opened Classifier
  import opened LabelApplier
  import opened Scheduler
  import opened Cycle

  function ThreadA(): (t: MailThread)
    ensures HasLastMessage(t)
  {
    var t := MailThread(1000, [Message(900, "hello"), Message(1000, "call for papers")], {}, false);
    assert t.messages[1].date == t.lastActivity;
    t
  }

  function ThreadB(): (t: MailThread)
    ensures HasLastMessage(t)
  {
    var t := MailThread(2000, [Message(2000, "lunch?")], {}, false);
    assert t.messages[0].date == t.lastActivity;
    t
  }

  function Start(): (st: State)
    ensures WellFormed(st.mail)
  {
    State(Some(500), Mailbox(["A", "B"], map["A" := ThreadA(), "B" := ThreadB()], {}), [Trigger("main", 10), Trigger("main", 10)])
  }

  function ScenarioConfig(): RawConfig {
    RawConfig(Some("main"), Some("key"),
      LabelArray([LabelDescriptor("academic", "Related to research")]), Some(5), None)
  }

  function ScenarioReply(b: Batch): Reply {
    ArrayReply([Item(Some("academic"), Some("A")), Item(Some("INBOX"), Some("B"))])
  }

  /** Both threads are fetched, each with the body of its latest message. */
  lemma ScenarioFetch()
    ensures Fetch(Start().mail, 500) == [FetchedItem("A", "call for papers"), FetchedItem("B", "lunch?")]
  {
    var mb := Start().mail;
    var msgs := ThreadA().messages;
    assert msgs[1..] == [Message(1000, "call for papers")];
    assert FirstAt(msgs, 1000) == 1;
    assert LastMessage(ThreadA()).body == "call for papers";
    assert LastMessage(ThreadB()).body == "lunch?";
    assert mb.order[1..] == ["B"];
    assert ["B"][1..] == [];
    assert FetchFrom(["B"], mb.threads, 500) == [FetchedItem("B", "lunch?")];
  }

  /** The reply archives and labels A and skips the INBOX entry for B. */
  lemma ScenarioApply()
    ensures var a := ApplyItems(Start().mail, ScenarioReply([]).items);
      && a.error.None?
      && a.mail.threads["A"] == ThreadA().(archived := true, labels := {"academic"})
      && a.mail.threads["B"] == ThreadB()
      && a.mail.userLabels == {"academic"}
  {
    var mb := Start().mail;
    var items := ScenarioReply([]).items;
    var mb1 := ApplyLabel(mb, "A", "academic");
    assert ApplyItem(mb, items[0]) == Applied(mb1, None);
    assert items[1..] == [Item(Some("INBOX"), Some("B"))];
    assert ApplyItem(mb1, items[1]) == Applied(mb1, None);
    assert items[1..][1..] == [];
    assert ApplyItems(mb1, items[1..]) == Applied(mb1, None);
  }

  /** The two duplicate triggers of the handler are replaced by one. */
  lemma ScenarioRearm()
    ensures Rearm(Start().triggers, "main", 10) == [Trigger("main", 10)]
  {
    var ts := Start().triggers;
    assert ts[1..] == [Trigger("main", 10)];
    assert ts[1..][1..] == [];
    assert DeleteBound(ts, "main") == [];
  }

  /** The configuration passes validation with the interval defaulted to ten minutes. */
  lemma ScenarioSettings()
    ensures Validate(ScenarioConfig()).Ok?
    ensures Validate(ScenarioConfig()).value.functionName == "main"
    ensures Validate(ScenarioConfig()).value.n == 5 && Validate(ScenarioConfig()).value.triggerTime == 10
  {
  }

  /** The single batch is sent and its reply applied. */
  lemma ScenarioProcess(fetched: Batch)
    ensures var st := Start().(watermark := Some(3000));
      ProcessBatches(st, 500, [fetched], ScenarioReply)
        == Progress(st.(mail := ApplyItems(Start().mail, ScenarioReply(fetched).items).mail), [fetched], None)
  {
    ScenarioApply();
    assert [fetched][1..] == [];
  }

  /** The two fetched threads form a single batch. */
  lemma ScenarioBatches(fetched: Batch)
    requires |fetched| == 2
    ensures Batches(fetched, 5) == Some([fetched])
  {
    assert Chunk(fetched, 5) == [fetched];
    BatchesMeaning(fetched, 5);
  }

  /** The cycle sends the fetched pair as one request, completes and re-arms once. */
  lemma ScenarioRun()
    ensures var fetched := Fetch(Start().mail, 500);
      var p := ProcessBatches(Start().(watermark := Some(3000)), 500, [fetched], ScenarioReply);
      RunCycle(Start(), ScenarioConfig(), 3000, ScenarioReply)
        == CycleResult(p.state.(triggers := [Trigger("main", 10)]), [fetched], Ok(Summary(3000, 2)))
  {
    var st := Start();
    ScenarioSettings();
    ScenarioFetch();
    var fetched := Fetch(st.mail, 500);
    ScenarioBatches(fetched);
    ScenarioProcess(fetched);
    ScenarioRearm();
    var cfg := Validate(ScenarioConfig()).value;
    assert StartWatermark(st.watermark, 3000) == 500;
    assert |fetched| == 2;
  }

  /** The final state of the scenario's cycle: the reply applied, the watermark at `now`, one trigger. */
  lemma ScenarioFinalState()
    ensures var r := RunCycle(Start(), ScenarioConfig(), 3000, ScenarioReply);
      && r.state == Start().(watermark := Some(3000),
                             mail := ApplyItems(Start().mail, ScenarioReply([]).items).mail,
                             triggers := [Trigger("main", 10)])
      && r.requests == [[FetchedItem("A", "call for papers"), FetchedItem("B", "lunch?")]]
      && r.outcome == Ok(Summary(3000, 2))
  {
    ScenarioRun();
    ScenarioFetch();
    var fetched := Fetch(Start().mail, 500);
    ScenarioProcess(fetched);
    assert ScenarioReply(fetched) == ScenarioReply([]);
  }

  /**
   * The summary counts two threads, both are sent in one request, no thread
   * appears or disappears, the watermark advances to `now`, the label is
   * created, and the two duplicate triggers are replaced by one.
   */
  lemma TwoThreadCycle()
    ensures var r := RunCycle(Start(), ScenarioConfig(), 3000, ScenarioReply);
      && r.outcome == Ok(Summary(3000, 2))
      && r.requests == [[FetchedItem("A", "call for papers"), FetchedItem("B", "lunch?")]]
      && r.state.mail.threads.Keys == {"A", "B"}
      && r.state.mail.userLabels == {"academic"}
      && r.state.watermark == Some(3000)
      && r.state.triggers == [Trigger("main", 10)]
  {
    ScenarioFinalState();
    ScenarioApply();
  }

  /** Thread A is archived and labelled "academic", and thread B is untouched. */
  lemma TwoThreadThreads()
    ensures var r := RunCycle(Start(), ScenarioConfig(), 3000, ScenarioReply);
      && "A" in r.state.mail.threads && "B" in r.state.mail.threads
      && r.state.mail.threads["A"] == ThreadA().(archived := true, labels := {"academic"})
      && r.state.mail.threads["B"] == ThreadB()
  {
    ScenarioFinalState();
    ScenarioApply();
  }
}

=== FILE: scheduler.dfy ===
/**
 * Self-rescheduling (`setTrigger_`): every project trigger bound to the
 * cycle's handler is deleted, then one time-based trigger for the handler is
 * installed with the configured interval.
 */
module Scheduler {

  /** A project trigger: the handler function it runs and its interval in minutes. */
  datatype Trigger = Trigger(handler: string, minutes: int)

  /** The triggers bound to `handler`, in the order they are listed. */
  function BoundTo(ts: seq<Trigger>, handler: string): (r: seq<Trigger>)
    ensures forall i :: 0 <= i < |r| ==> r[i].handler == handler
    ensures multiset(r) <= multiset(ts)
    decreases |ts|
  {
    if |ts| == 0 then []
    else
      assert ts == [ts[0]] + ts[1..];
      if ts[0].handler == handler then [ts[0]] + BoundTo(ts[1..], handler)
      else BoundTo(ts[1..], handler)
  }

  /** The listed triggers with every one bound to `handler` deleted. */
  function DeleteBound(ts: seq<Trigger>, handler: string): (r: seq<Trigger>)
    ensures BoundTo(r, handler) == []
    ensures forall h :: h != handler ==> BoundTo(r, h) == BoundTo(ts, h)
    decreases |ts|
  {
    if |ts| == 0 then []
    else if ts[0].handler == handler then DeleteBound(ts[1..], handler)
    else
      var rest := DeleteBound(ts[1..], handler);
      assert ([ts[0]] + rest)[1..] == rest;
      [ts[0]] + rest
  }

  /** `BoundTo` distributes over concatenation. */
  lemma {:induction false} BoundToAppend(a: seq<Trigger>, b: seq<Trigger>, handler: string)
    ensures BoundTo(a + b, handler) == BoundTo(a, handler) + BoundTo(b, handler)
    decreases |a|
  {
    if |a| == 0 {
      assert a + b == b;
    } else {
      assert (a + b)[1..] == a[1..] + b;
      BoundToAppend(a[1..], b, handler);
    }
  }

  /**
   * Re-arms the handler: afterwards exactly one trigger is bound to it, with
   * the given interval, however many were bound before; the triggers of every
   * other handler are kept, in order.
   */
  function Rearm(ts: seq<Trigger>, handler: string, minutes: int): (r: seq<Trigger>)
    ensures BoundTo(r, handler) == [Trigger(handler, minutes)]
    ensures forall h :: h != handler ==> BoundTo(r, h) == BoundTo(ts, h)
    ensures |r| == |ts| - |BoundTo(ts, handler)| + 1
  {
    var kept := DeleteBound(ts, handler);
    var r := kept + [Trigger(handler, minutes)];
    BoundToAppend(kept, [Trigger(handler, minutes)], handler);
    forall h | h != handler
      ensures BoundTo(r, h) == BoundTo(ts, h)
    {
      BoundToAppend(kept, [Trigger(handler, minutes)], h);
    }
    DeleteBoundLength(ts, handler);
    r
  }

  /** Deleting removes exactly the triggers bound to the handler. */
  lemma {:induction false} DeleteBoundLength(ts: seq<Trigger>, handler: string)
    ensures |DeleteBound(ts, handler)| == |ts| - |BoundTo(ts, handler)|
    decreases |ts|
  {
    if |ts| > 0 {
      DeleteBoundLength(ts[1..], handler);
    }
  }

  /** Re-arming twice with the same handler and interval is the same as re-arming once. */
  lemma RearmIdempotent(ts: seq<Trigger>, handler: string, minutes: int)
    ensures Rearm(Rearm(ts, handler, minutes), handler, minutes) == Rearm(ts, handler, minutes)
  {
    DeleteAfterRearm(ts, handler, minutes);
  }

  /** Deleting the handler's triggers after a re-arm leaves the triggers the re-arm kept. */
  lemma DeleteAfterRearm(ts: seq<Trigger>, handler: string, minutes: int)
    ensures DeleteBound(Rearm(ts, handler, minutes), handler) == DeleteBound(ts, handler)
  {
    var kept := DeleteBound(ts, handler);
    DeleteBoundAppend(kept, [Trigger(handler, minutes)], handler);
    DeleteBoundNone(kept, handler);
    assert DeleteBound([Trigger(handler, minutes)], handler) == DeleteBound([], handler);
  }

  /** `DeleteBound` distributes over concatenation. */
  lemma {:induction false} DeleteBoundAppend(a: seq<Trigger>, b: seq<Trigger>, handler: string)
    ensures DeleteBound(a + b, handler) == DeleteBound(a, handler) + DeleteBound(b, handler)
    decreases |a|
  {
    if |a| == 0 {
      assert a + b == b;
    } else {
      assert (a + b)[1..] == a[1..] + b;
      DeleteBoundAppend(a[1..], b, handler);
    }
  }

  /** Deleting from a list with no trigger bound to the handler changes nothing. */
  lemma {:induction false} DeleteBoundNone(ts: seq<Trigger>, handler: string)
    requires BoundTo(ts, handler) == []
    ensures DeleteBound(ts, handler) == ts
    decreases |ts|
  {
    if |ts| > 0 {
      assert ts[0].handler != handler;
      DeleteBoundNone(ts[1..], handler);
    }
  }
}

=== FILE: wrappers.dfy ===
/** Optional values and results shared by every module of the triage model. */
module Wrappers {

  /** A value that may be absent: a JavaScript `undefined`/`null` or a present value. */
  datatype Option<+T> = None | Some(value: T)

  /** The outcome of an operation that can fail with an error of type `E`. */
  datatype Result<+T, +E> = Ok(value: T) | Err(error: E)
}
